=== FILE: README.md ===
# A Dafny model of the xindata chat CLI

`main.py` is a command-line tool that answers questions about a table of
freelancer earnings. On start it imports a CSV file into a SQLite table when
the table is missing. It then hands each question to a chat-completion agent,
which may call one tool, `run_sql_query`, up to five round trips per
question. This project models the logic of that file, with SQLite, the CSV
reader, the agent and the console as oracles:

- `Columns` — the column-name normaliser `_clean` and the cleaned header.
- `Statements` — the three texts `import_csv` builds: the quoted column list,
  the drop-and-create script, and the insert with one `?` per column. Small
  parsers read them back, so the agreement between the statements is stated as
  round trips.
- `Importer` — the order in which `import_csv` consults the file, the store and
  the reader, the statements it issues, and its result.
- `Query` — `run_sql_query`. It covers:
  - the readiness gate;
  - the syntactic read/write test;
  - rows turned into dictionaries with Python `dict` semantics;
  - the 20-row cut;
  - the reply texts;
  - the `TypeError` that `json.dumps` raises on a BLOB value.

  The store is a `Store` value of functions (`ready`, `execute`, `dumps`) over
  an abstract store state.
- `Chat` — the tool-call loop of `chat`. The agent is a function from the
  transcript to its next reply. The executor is a function that threads the
  store state from call to call.
- `Entry` — `main` after argument parsing:
  - import when the store is not ready, crash if an exception escapes the
    import, and abort if the import fails;
  - a one-shot question, or the interactive loop over input lines.
- `Strings`, `Decimal`, `Optional` — the Python `str` operations the code uses:
  - `strip`, `lstrip` and `rstrip` with the exact `str.isspace` set;
  - single-character `replace`, `join`, ASCII `upper` and `lower`;
  - decimal rendering of the change count.

Some behaviours of the code are easy to misread; the model follows the code:

- **The "No rows." reply.** `json.dumps(rows[:20], indent=2) or "No rows."`
  never yields "No rows.": `json.dumps([])` is `"[]"`, and no serialised list
  is empty (`Query.NoRowsNeverReturned`).
- **The change count.** Every call of `run_sql_query` opens a fresh
  connection, so `total_changes` counts only that connection's changes. It is
  an oracle answer here, with no monotonicity across calls.
- **Whitespace in cleaned names.** `_clean` strips before it deletes periods,
  so `"a\t."` cleans to `"a\t"`, which ends in whitespace
  (`Columns.CleanCanLeaveSurroundingSpace`).
- **Two empty words.** With two empty command-line words, `" ".join` gives
  `" "`, which is non-empty, so it is asked as a one-shot question
  (`Entry.InteractiveIffNoQuestion`).
- **BLOB values.** `json.dumps` raises `TypeError` on a `bytes` value. Nothing
  in `run_sql_query`, `chat` or `main` catches it, so a read whose first 20
  row dictionaries hold a BLOB ends the program. A BLOB hidden by a later
  column of the same name (`SELECT x'00' AS a, 1 AS a`) is dropped by
  `dict(zip(...))` and does not raise (`Query.RepeatedNameHidesBlob`) (`Query.RunSqlQuery`, `Query.SelectBlobRaises`).

## Model

| member | source | states |
|---|---|---|
| Strings.LStrip | main.py:87 | the result is what follows the longest all-whitespace prefix, and it does not start with whitespace |
| Strings.LStripUnique | main.py:87 | whenever a string splits into whitespace followed by a part that does not start with whitespace, `lstrip` returns exactly that part |
| Strings.RStrip | main.py:40 | `rstrip()` returns a prefix of its input, only whitespace follows it, and it does not end in whitespace |
| Strings.Strip | main.py:40 | `strip()` returns a string with no whitespace at either end |
| Strings.RStripUnique | main.py:40 | whenever a string splits into a part that does not end in whitespace followed by whitespace, `rstrip` returns exactly that part |
| Strings.StripIsRStripOfLStrip | main.py:40 | `strip()` is `rstrip()` applied after `lstrip()` |
| Strings.StripMiddle | main.py:40 | `strip()` returns a contiguous middle of its input, with only whitespace before and after it |
| Strings.StripTrimmed | main.py:150 | a string with no surrounding whitespace is left unchanged by `strip()` |
| Strings.StripIdempotent | main.py:150 | stripping twice is the same as stripping once |
| Strings.ReplaceChar | main.py:40 | `replace(a, b)` keeps the length, puts `b` exactly where `a` was, and leaves every other character in place |
| Strings.DeleteChar | main.py:40 | `replace(c, "")` removes every `c` and shortens the text by their number. Every other character is kept, in order: the one at index `i` moves to index `i` minus the number of `c` before it |
| Strings.CountAfterReplace | main.py:40 | replacing `a` by `b` leaves the count of every third character unchanged |
| Strings.JoinEnds | main.py:51 | `sep.join(xs)` opens with the first part and closes with the last |
| Strings.Upper | main.py:87 | `upper()` keeps the length and maps each character to its upper case (ASCII letters only; see Left out) |
| Strings.Lower | main.py:151 | `lower()` keeps the length and maps each character to its lower case (ASCII letters only; see Left out) |
| Strings.JoinEmpty | main.py:143 | `sep.join(xs)` with a non-empty separator is empty exactly when there are no parts, or one empty part |
| Columns.Clean | main.py:39-40 | the cleaned name has no space, hyphen or period. Its length is the stripped length minus the number of periods. Every character other than `_` comes from the input |
| Columns.CleanIsCharwise | main.py:39-40 | the three chained replacements equal a one-pass per-character rewrite of the stripped label, in order: space and hyphen become `_`, a period is dropped, anything else is kept |
| Columns.CleanEmpty | main.py:39-40 | `_clean` returns "" exactly when the stripped label consists only of periods |
| Columns.CleanFixpoint | main.py:39-40 | a label with no surrounding whitespace and no space, hyphen or period is returned unchanged |
| Columns.CleanIdempotentWhenTrimmed | main.py:39-40 | cleaning a cleaned name again changes nothing when that name has no surrounding whitespace |
| Columns.CleanCanLeaveSurroundingSpace | main.py:39-40 | a label such as `"a\t."` cleans to `"a\t"`: it ends in whitespace, and cleaning it again gives `"a"` |
| Columns.Header | main.py:50 | the header is each raw field cleaned, in field order |
| Statements.ColumnList | main.py:51 | the column list is empty exactly for an empty header; otherwise it opens and closes with a double quote |
| Statements.CreateScript | main.py:52-55 | the drop-and-create script text; what it says is stated by `Statements.CreateRoundTrip` |
| Statements.Placeholders | main.py:56 | the placeholder list is empty exactly for no columns; otherwise it opens and closes with `?` |
| Statements.InsertStatement | main.py:57-58 | the insert text; what it says is stated by `Statements.InsertRoundTrip` |
| Statements.OneMarkerPerField | main.py:50-58 | for any first record, names with quotes included, the insert ends with a value list holding exactly one `?` per raw field |
| Statements.ColumnListRoundTrip | main.py:51 | reading back the quoted, comma-separated column list yields the names it was built from, in order, when no name contains `"` |
| Statements.PlaceholderCount | main.py:56 | the placeholder list holds exactly one `?` per column |
| Statements.PlaceholdersRoundTrip | main.py:56 | counting the `?, ?, ...` list back gives the number of columns |
| Statements.CreateRoundTrip | main.py:52-55 | the script drops and creates the same table, and creates it with exactly the given columns in order |
| Statements.InsertRoundTrip | main.py:57-58 | the insert targets the table, lists exactly the given columns in order, and has one placeholder per column |
| Statements.ImportStatementsAgree | main.py:50-58 | the create and the insert carry the same column list, namely the cleaned header in header order, and the insert's placeholder count equals the header width |
| Statements.UnescapedQuoteSplitsName | main.py:51 | a `"` inside a name ends the quoted identifier early, so the list reads back with a different first name |
| Importer.ImportAsWritten | main.py:43-64 | the import as written: the `StopIteration` from `next(rdr)` escapes for an existing empty file with a working connection, and for no other modelled input (other escapes are under Left out). Over the reader answers the model has, the import succeeds if and only if the file exists and has a first record, and the connection, the script and the insert all succeed; statements are issued if and only if a first record was read over a working connection |
| Importer.EmptySourceEscapes | main.py:47-50 | for an existing but empty file the import as written ends with an uncaught exception and issues no statement |
| Importer.Import | main.py:43-64 | the import succeeds only if the file exists, has a first record, and the connection, the script and the insert all succeed. A missing file issues nothing. The script is issued first, with the cleaned header. The insert is issued second, with the remaining records, and only after the script succeeded. The import never ends in an uncaught exception |
| Importer.ImportMatchesAsWritten | main.py:43-64 | for every source other than the empty file, the corrected import behaves exactly as written |
| Query.IsRead | main.py:87 | the read test `query.lstrip().upper().startswith("SELECT")`; `Query.IsReadIffSelectAfterSpace` restates it without `lstrip` |
| Query.RunSqlQuery | main.py:81-93 | an unready store gets exactly "Database not initialised." and no statement; a ready one receives exactly the query. The call raises (an uncaught `TypeError`) exactly when a read succeeded and one of the first 20 row dictionaries holds a BLOB |
| Query.Reply | main.py:86-93 | the reply is missing (`json.dumps` raises) exactly for a read whose shown rows hold a BLOB, and with a list serialiser it is never "No rows." |
| Query.SelectBlobRaises | main.py:88-89 | a read returning one BLOB column, as `SELECT x'00'` does, ends in the uncaught `TypeError` |
| Query.RepeatedNameHidesBlob | main.py:88-89 | when two result columns share a name, the later value replaces an earlier BLOB in the row's dictionary: `SELECT x'00' AS a, 1 AS a` is answered, with the serialisation of `[{"a": 1}]`, instead of raising |
| Query.IsReadIffSelectAfterSpace | main.py:87 | a statement takes the read path exactly when some whitespace prefix is followed by the six letters SELECT in any letter case |
| Query.ReadNeedsLeadingSelect | main.py:87 | on the read path the first non-whitespace character is `s` or `S`; a CTE or a leading comment takes the write path |
| Query.Put | main.py:88 | storing into a dict keeps keys distinct and adds the key. The key then maps to the new value, and every other key keeps its value. An existing key keeps its position, so the key order is unchanged; a new key is appended last |
| Query.ToRecord | main.py:88 | `dict(zip(names, row))` has distinct keys, and each key holds the value zipped with it last |
| Query.Records | main.py:88 | one dictionary per result row, in result order |
| Query.DictOfDistinct | main.py:88 | `dict(pairs)` over pairs with distinct keys holds exactly those pairs, in the same order |
| Query.ToRecordOfDistinctNames | main.py:88-89 | with distinct column names, a row's dictionary lists the columns in cursor order with their values, the order `json.dumps` writes them in |
| Query.DictOfKeepsLastValue | main.py:88 | in `dict(pairs)` each key holds the value it was paired with last; a key never paired is absent |
| Query.ReadShowsFirstRows | main.py:87-89 | on the read path the reply serialises the first min(20, n) rows, each as the dictionary of its column names and values, in result order, unless one of them holds a BLOB, in which case the call raises |
| Query.WriteReportsChanges | main.py:90-91 | on the write path there is a reply, and it is "OK (n changes)" with the connection's change count |
| Query.NoRowsNeverReturned | main.py:89 | "No rows." is never the reply |
| Query.ErrorPrefixIffFailure | main.py:81-93 | there is a reply starting with "SQL error: " exactly when the store raised an error for the statement, and that reply is "SQL error: " followed by the store's message |
| Decimal.NatToString | main.py:91 | the change count is rendered with decimal digits only, and with no leading zero |
| Decimal.ParseNatToString | main.py:91 | reading the rendered count back gives the count |
| Decimal.NatToStringInjective | main.py:91 | distinct counts are rendered differently |
| Chat.ToolMessages | main.py:124-127 | one tool message per call, in call order, each carrying its call's id, the tool name and the executor's text |
| Chat.SqlsOf | main.py:124-125 | one SQL text per tool call, the `j`-th being the `j`-th call's |
| Chat.RunAllAt | main.py:124-126 | the `j`-th tool result is the executor's answer to the `j`-th statement, run on the state left by the statements before it |
| Chat.RunCalls | main.py:124-127 | the calls' SQL texts go to the executor in call order, each on the store state the previous one left |
| Chat.RunAllAppend | main.py:117-127 | running two batches of statements one after the other is the same as running them as one batch |
| Chat.Chat | main.py:109-128 | without a key, no request is made. Otherwise 1 to 5 requests are made, each on the transcript built so far, and the call never ends as disabled. Every reply before the last carried tool calls, and fewer than 5 requests means the last reply had none. The call ends with an answer exactly when the last reply has none, and with the budget warning exactly when all five did. The tool results are the executor's texts, with the store threaded through |
| Chat.Converse | main.py:113-128 | the request loop: 1 to 5 requests; it ends with the answer or the budget warning, never disabled; it stops early only on a reply without tool calls; the transcript is the seed messages followed by each round's reply and tool results |
| Chat.EndlessToolCalls | main.py:117-128 | an agent that always replies with tool calls is asked exactly 5 times, and the call ends with the budget warning |
| Chat.Seed | main.py:113-116 | every request's transcript opens with the system instruction naming the table and then the user's question |
| Chat.Turn | main.py:118-127 | one round trip sends the current transcript, and appends the reply and then one result per tool call |
| Chat.TranscriptGrows | main.py:113-127 | the transcript is only appended to: what the agent saw at each request is a prefix of every later transcript |
| Chat.RoundCorrelates | main.py:120-127 | a round appends the reply first, then for the k-th call the tool message answering the k-th call's id |
| Entry.IsQuit | main.py:151 | a line quits when its lower case is `exit` or `quit` |
| Entry.Classify | main.py:150-153 | a stripped line is a quit word, blank, or a question that is non-empty and not a quit word |
| Entry.StrippedAt | main.py:150 | the loop sees each input line stripped |
| Entry.Interactive | main.py:148-156 | the loop calls `chat` exactly with the questions among the stripped lines before the first quit word, in input order |
| Entry.PromptsAreQuestions | main.py:150-154 | every question passed to `chat` is a stripped, non-blank input line that is not `exit` or `quit` in any letter case |
| Entry.PromptsAppend | main.py:148-156 | lines before any quit word contribute their questions, in order, ahead of those of later lines |
| Entry.PromptsStopAtQuit | main.py:151-152 | a quit word ends the session: nothing after it is asked |
| Entry.Start | main.py:137-146 | `main` as written: an import runs only when the store is not ready. An exception escaping the import crashes `main`, and a failed import aborts. Otherwise a non-empty joined question is asked once, and an empty one starts the interactive loop |
| Entry.StartCorrected | main.py:137-146 | `main` on the corrected import never crashes; a failed import (an empty source included) aborts, and otherwise it launches as written |
| Entry.EmptySourceCrashes | main.py:47-50 | with the store not ready, an existing empty source crashes `main` as written before any chat, while the corrected program aborts |
| Entry.StartsAgree | main.py:137-146 | apart from the empty source file, the corrected start equals the start as written |
| Entry.FailedImportNeverChats | main.py:137-141 | when the store is not ready and the import does not succeed, `chat` is never called |
| Entry.MissingSourceNeverChats | main.py:137-141 | a missing source file aborts with no statement issued and no chat |
| Entry.InteractiveIffNoQuestion | main.py:143-147 | the interactive loop is entered exactly when there are no words, or a single empty word |
| Entry.OneShotChatsOnce | main.py:143-145 | when the words joined by spaces are non-empty, `chat` is called exactly once, with that text |

## Left out

- SQLite is an oracle. Readiness (`db_ready`, main.py:67-78), execution, commit, error messages and `total_changes` are answers of a `Store` value. The `sqlite_master` lookup is not modelled.
- The file system, `csv.reader` and UTF-8 decoding are oracles. The import takes the file's existence (and assumes an existing file can be opened), the reader's result (records, no record, or a `csv.Error`) and the store's answers as inputs. A `csv.Error` raised while the insert consumes later rows counts as a failed insert.
- `executescript` and `executemany` are not executed. The model records the statements issued and the store's success answers.
- The chat-completion call and `json.loads` of the tool arguments (main.py:118-125) are an agent function whose tool calls already carry the SQL text. Malformed arguments, a missing `query` key and network errors are not modelled.
- `json.dumps(..., indent=2)` is an abstract serialiser for the text it produces. The facts used are that a list serialises to text starting with `[`, and that a BLOB value makes it raise `TypeError`.
- Chat.Chat: the executor is a total function, so the `TypeError` that ends the program when `run_sql_query` meets a BLOB (`Query.RunSqlQuery`) is not propagated through the tool-call loop.
- Importer.ImportAsWritten: a file that exists but cannot be opened (a directory, or a file without read permission) makes `csv_file.open` at main.py:48 raise `IsADirectoryError` or `PermissionError`, an `OSError` that the `except` at main.py:62 does not catch, so it escapes `import_csv` and `main`; the model has no answer for it and treats such a file as found, with the reader's answer deciding the outcome. Likewise, a `UnicodeDecodeError` (a `ValueError`, neither `csv.Error` nor `sqlite3.Error`) raised by `next(rdr)` at main.py:50 or while `executemany` consumes the reader at main.py:57-58 also escapes `import_csv` and `main`; the reader's answers cannot express it, so such a file is modelled as a header error or a failed insert, not as a crash.
- Entry.Interactive: every `chat` call is assumed to return. The `try` at main.py:149-156 catches only `EOFError` and `KeyboardInterrupt`, so a `chat` call that raises (the BLOB `TypeError`, an agent error) ends `main` and the later lines are never asked; `Session(...)` lists the questions as if every call returned.
- A `None` content in a final reply, and content sent alongside `tool_calls`, are not modelled. The agent reply is either a final text or a list of calls.
- `argparse`, `dotenv` and environment loading, logging, `print` and `input` are left out (main.py:24-36, 132-135). The API key's presence is a boolean. The input lines are a sequence that ends at end of input. `KeyboardInterrupt` is not modelled.
- The interactive loop's one `chat` call per question is recorded as the sequence of questions. The effects of those calls are described by `Chat.Chat` for each question on its own; the model does not compose them.
- Strings.Upper: Python's `upper()` and `lower()` map all of Unicode; the model maps ASCII letters only, so a statement starting with a non-ASCII letter whose upper case is `S` is not classified as Python would.
- Python's `str.strip()` counts the code points of `str.isspace()`. The model lists them by code point; no other Unicode handling is modelled.

## Findings

| source | as written | input that shows it | evidently intended | confidence | as-written member | corrected member |
|---|---|---|---|---|---|---|
| main.py:47-64 | `next(rdr)` on a file with no records raises `StopIteration`, which `except (csv.Error, sqlite3.Error)` does not catch, so the exception leaves `import_csv` and `main` | an existing, empty `freelancer_earnings_bd.csv` with the table missing | the import reports failure (`False`), as it does for a missing file or a `csv.Error`, and `main` stops with "Cannot continue without database/table." | not executed | Importer.ImportAsWritten, Importer.EmptySourceEscapes | Importer.Import |

=== FILE: chat.dfy ===
/**
 The tool-call loop `chat` (main.py:109-128). The agent (the chat-completion
 endpoint) is a function from the transcript so far to its next reply; the
 executor (`run_sql_query`) is a function that threads an abstract store
 state `S` from one call to the next.
 */
module Chat {
  import opened Statements

  /** The system instruction (main.py:106). */
  const Prompt: string := "Assistant for freelance DB. Use run_sql_query on table '" + Table + "'."
  const ToolName: string := "run_sql_query"
  /** Round trips to the agent per `chat` call (main.py:117). */
  const Budget: nat := 5

  /** One entry of a reply's `tool_calls`, its arguments already decoded to the
      SQL text. */
  datatype ToolCall = ToolCall(id: string, sql: string)

  /** A reply without `tool_calls`, or one that carries them (possibly none). */
  datatype Reply = Final(content: string) | Calls(calls: seq<ToolCall>)

  datatype Message =
    | System(content: string)
    | User(content: string)
    | Assistant(reply: Reply)
    | Tool(callId: string, name: string, content: string)

  /** One round trip: the agent's reply and the executor's text for each of its
      tool calls, in call order. */
  datatype Round = Round(reply: Reply, results: seq<string>)

  /** How a `chat` call ends: no API key, a printed answer, or the budget warning. */
  datatype ChatEnd = Disabled | Answered(text: string) | BudgetExceeded

  function Seed(prompt: string): seq<Message>
  {
    [System(Prompt), User(prompt)]
  }

  function CallsOf(reply: Reply): seq<ToolCall>
  {
    if reply.Calls? then reply.calls else []
  }

  /** The tool-result messages for a reply's calls: one per call, carrying the
      call's id and the executor's text. */
  function ToolMessages(calls: seq<ToolCall>, results: seq<string>): (ms: seq<Message>)
    requires |calls| == |results|
    ensures |ms| == |calls|
    ensures forall j :: 0 <= j < |calls| ==> ms[j] == Tool(calls[j].id, ToolName, results[j])
  {
    if |calls| == 0 then []
    else ToolMessages(calls[..|calls| - 1], results[..|results| - 1])
         + [Tool(calls[|calls| - 1].id, ToolName, results[|results| - 1])]
  }

  predicate Complete(r: Round)
  {
    |r.results| == |CallsOf(r.reply)|
  }

  predicate AllComplete(rounds: seq<Round>)
  {
    forall i :: 0 <= i < |rounds| ==> Complete(rounds[i])
  }

  /** What one round trip appends: the reply first, then its tool results. */
  function RoundMessages(r: Round): seq<Message>
    requires Complete(r)
  {
    [Assistant(r.reply)] + ToolMessages(CallsOf(r.reply), r.results)
  }

  function Transcript(rounds: seq<Round>): seq<Message>
    requires AllComplete(rounds)
  {
    if |rounds| == 0 then []
    else Transcript(rounds[..|rounds| - 1]) + RoundMessages(rounds[|rounds| - 1])
  }

  /** The SQL text of each call, in call order. */
  function SqlsOf(calls: seq<ToolCall>): (qs: seq<string>)
    ensures |qs| == |calls|
    ensures forall j :: 0 <= j < |calls| ==> qs[j] == calls[j].sql
  {
    if |calls| == 0 then [] else SqlsOf(calls[..|calls| - 1]) + [calls[|calls| - 1].sql]
  }

  /** The statements handed to the executor, in order. */
  function Queries(rounds: seq<Round>): seq<string>
  {
    if |rounds| == 0 then []
    else Queries(rounds[..|rounds| - 1]) + SqlsOf(CallsOf(rounds[|rounds| - 1].reply))
  }

  /** The executor's texts, in order. */
  function Outputs(rounds: seq<Round>): seq<string>
  {
    if |rounds| == 0 then [] else Outputs(rounds[..|rounds| - 1]) + rounds[|rounds| - 1].results
  }

  /** Running statements one after another, each on the store state the
      previous one left: the final state and the texts. */
  function RunAll<S>(run: (S, string) -> (S, string), s: S, qs: seq<string>): (r: (S, seq<string>))
    ensures |r.1| == |qs|
  {
    if |qs| == 0 then (s, [])
    else
      var prev := RunAll(run, s, qs[..|qs| - 1]);
      var next := run(prev.0, qs[|qs| - 1]);
      (next.0, prev.1 + [next.1])
  }

  lemma RunAllSnoc<S>(run: (S, string) -> (S, string), s: S, qs: seq<string>, q: string)
    ensures RunAll(run, s, qs + [q])
         == (run(RunAll(run, s, qs).0, q).0, RunAll(run, s, qs).1 + [run(RunAll(run, s, qs).0, q).1])
  {
    assert (qs + [q])[..|qs|] == qs;
  }

  /** The `j`-th text is what the executor answered for the `j`-th statement,
      run on the state the statements before it left. */
  lemma {:induction false} RunAllAt<S>(run: (S, string) -> (S, string), s: S, qs: seq<string>, j: nat)
    requires j < |qs|
    ensures RunAll(run, s, qs).1[j] == run(RunAll(run, s, qs[..j]).0, qs[j]).1
    decreases |qs|
  {
    var n := |qs| - 1;
    if j < n {
      RunAllAt(run, s, qs[..n], j);
      assert qs[..n][..j] == qs[..j];
    } else {
      assert qs[..j] == qs[..n];
    }
  }

  lemma RoundsSnoc(rounds: seq<Round>, r: Round)
    requires AllComplete(rounds) && Complete(r)
    ensures AllComplete(rounds + [r])
    ensures Transcript(rounds + [r]) == Transcript(rounds) + RoundMessages(r)
    ensures Queries(rounds + [r]) == Queries(rounds) + SqlsOf(CallsOf(r.reply))
    ensures Outputs(rounds + [r]) == Outputs(rounds) + r.results
    ensures forall p: seq<Message> :: p + Transcript(rounds + [r]) == p + Transcript(rounds) + RoundMessages(r)
  {
    assert (rounds + [r])[..|rounds|] == rounds;
  }

  /** Running `a` then `b` is running `a + b`. */
  lemma {:induction false} RunAllAppend<S>(run: (S, string) -> (S, string), s: S, a: seq<string>, b: seq<string>)
    ensures RunAll(run, s, a + b)
         == (RunAll(run, RunAll(run, s, a).0, b).0, RunAll(run, s, a).1 + RunAll(run, RunAll(run, s, a).0, b).1)
    decreases |b|
  {
    if |b| == 0 {
      assert a + b == a;
      var A := RunAll(run, s, a);
      assert RunAll(run, A.0, b) == (A.0, []);
      assert A.1 + [] == A.1;
    } else {
      var b', x := b[..|b| - 1], b[|b| - 1];
      var A := RunAll(run, s, a);
      RunAllAppend(run, s, a, b');
      var P := RunAll(run, s, a + b');
      var Q := RunAll(run, A.0, b');
      assert P == (Q.0, A.1 + Q.1);
      assert a + b == (a + b') + [x];
      RunAllSnoc(run, s, a + b', x);
      assert b == b' + [x];
      RunAllSnoc(run, A.0, b', x);
      var next := run(Q.0, x);
      assert RunAll(run, s, a + b) == (next.0, (A.1 + Q.1) + [next.1]);
      assert RunAll(run, A.0, b) == (next.0, Q.1 + [next.1]);
      assert (A.1 + Q.1) + [next.1] == A.1 + (Q.1 + [next.1]);
    }
  }

  /** Every request saw exactly the transcript built so far. */
  ghost predicate Consulted(agent: seq<Message> -> Reply, prompt: string, rounds: seq<Round>)
    requires AllComplete(rounds)
  {
    forall i :: 0 <= i < |rounds| ==> rounds[i].reply == agent(Seed(prompt) + Transcript(rounds[..i]))
  }

  predicate AllCalls(rounds: seq<Round>)
  {
    forall i :: 0 <= i < |rounds| ==> rounds[i].reply.Calls?
  }

  lemma ConsultedSnoc(agent: seq<Message> -> Reply, prompt: string, rounds: seq<Round>, r: Round)
    requires AllComplete(rounds) && Complete(r)
    requires Consulted(agent, prompt, rounds)
    requires r.reply == agent(Seed(prompt) + Transcript(rounds))
    ensures AllComplete(rounds + [r])
    ensures Consulted(agent, prompt, rounds + [r])
  {
    var rs := rounds + [r];
    assert rs[..|rounds|] == rounds;
    forall i | 0 <= i < |rounds| ensures rs[..i] == rounds[..i] {}
  }

  /** The inner loop of `chat` (main.py:124-127): each call's SQL goes to the
      executor in call order. */
  method RunCalls<S>(calls: seq<ToolCall>, run: (S, string) -> (S, string), s0: S)
    returns (results: seq<string>, s: S)
    ensures (s, results) == RunAll(run, s0, SqlsOf(calls))
  {
    results := [];
    s := s0;
    var j := 0;
    while j < |calls|
      invariant 0 <= j <= |calls|
      invariant (s, results) == RunAll(run, s0, SqlsOf(calls[..j]))
    {
      var next := run(s, calls[j].sql);
      assert calls[..j + 1][..j] == calls[..j];
      RunAllSnoc(run, s0, SqlsOf(calls[..j]), calls[j].sql);
      results := results + [next.1];
      s := next.0;
      j := j + 1;
    }
    assert calls[..j] == calls;
  }

  /** What holds after every completed round trip: the rounds are complete,
      every request saw the transcript built so far, and the tool results are
      the executor's texts with the store threaded through the calls. */
  ghost predicate Faithful<S>(agent: seq<Message> -> Reply, run: (S, string) -> (S, string),
                              prompt: string, s0: S, rounds: seq<Round>, s: S)
  {
    && AllComplete(rounds)
    && Consulted(agent, prompt, rounds)
    && (s, Outputs(rounds)) == RunAll(run, s0, Queries(rounds))
  }

  lemma FaithfulStep<S>(agent: seq<Message> -> Reply, run: (S, string) -> (S, string),
                        prompt: string, s0: S, rounds: seq<Round>, s: S, r: Round, s': S)
    requires Faithful(agent, run, prompt, s0, rounds, s)
    requires Complete(r)
    requires r.reply == agent(Seed(prompt) + Transcript(rounds))
    requires (s', r.results) == RunAll(run, s, SqlsOf(CallsOf(r.reply)))
    ensures Faithful(agent, run, prompt, s0, rounds + [r], s')
    ensures Seed(prompt) + Transcript(rounds) + RoundMessages(r) == Seed(prompt) + Transcript(rounds + [r])
  {
    RoundsSnoc(rounds, r);
    ConsultedSnoc(agent, prompt, rounds, r);
    RunAllAppend(run, s0, Queries(rounds), SqlsOf(CallsOf(r.reply)));
  }

  /** `chat(prompt)`: returns how the call ended, the final transcript, the
      round trips made (one per agent request) and the store state after the
      last tool call. */
  method Chat<S>(hasKey: bool, prompt: string, agent: seq<Message> -> Reply,
                 run: (S, string) -> (S, string), s0: S)
    returns (end: ChatEnd, msgs: seq<Message>, rounds: seq<Round>, s: S)
    ensures AllComplete(rounds)
    ensures !hasKey ==> end == Disabled && rounds == [] && msgs == [] && s == s0
    ensures hasKey ==> 1 <= |rounds| <= Budget && !end.Disabled?
    ensures hasKey && |rounds| < Budget ==> rounds[|rounds| - 1].reply.Final?
    ensures hasKey ==> msgs == Seed(prompt) + Transcript(rounds)
    ensures Consulted(agent, prompt, rounds)
    ensures |rounds| > 0 ==> AllCalls(rounds[..|rounds| - 1])
    ensures end.Answered? <==> hasKey && rounds[|rounds| - 1].reply.Final?
    ensures end.Answered? ==> end.text == rounds[|rounds| - 1].reply.content
    ensures end == BudgetExceeded <==> hasKey && |rounds| == Budget && rounds[Budget - 1].reply.Calls?
    ensures (s, Outputs(rounds)) == RunAll(run, s0, Queries(rounds))
  {
    if !hasKey {
      return Disabled, [], [], s0;
    }
    end, msgs, rounds, s := Converse(prompt, agent, run, s0);
  }

  /** An agent that answers every request with tool calls is asked exactly
      `Budget` times, and the call ends with the budget warning. */
  method EndlessToolCalls<S>(prompt: string, agent: seq<Message> -> Reply,
                             run: (S, string) -> (S, string), s0: S)
    returns (end: ChatEnd, rounds: seq<Round>)
    requires forall m :: agent(m).Calls?
    ensures end == BudgetExceeded
    ensures |rounds| == Budget
    ensures forall i :: 0 <= i < |rounds| ==> rounds[i].reply.Calls?
  {
    var msgs, s;
    end, msgs, rounds, s := Chat(true, prompt, agent, run, s0);
    assert rounds[|rounds| - 1].reply == agent(Seed(prompt) + Transcript(rounds[..|rounds| - 1]));
  }

  /** The request loop of `chat` (main.py:117-128), entered once a key is set. */
  method Converse<S>(prompt: string, agent: seq<Message> -> Reply,
                     run: (S, string) -> (S, string), s0: S)
    returns (end: ChatEnd, msgs: seq<Message>, rounds: seq<Round>, s: S)
    ensures 1 <= |rounds| <= Budget
    ensures !end.Disabled?
    ensures |rounds| < Budget ==> rounds[|rounds| - 1].reply.Final?
    ensures Faithful(agent, run, prompt, s0, rounds, s)
    ensures msgs == Seed(prompt) + Transcript(rounds)
    ensures AllCalls(rounds[..|rounds| - 1])
    ensures end.Answered? <==> rounds[|rounds| - 1].reply.Final?
    ensures end.Answered? ==> end.text == rounds[|rounds| - 1].reply.content
    ensures end == BudgetExceeded <==> |rounds| == Budget && rounds[Budget - 1].reply.Calls?
  {
    msgs := Seed(prompt);
    rounds := [];
    s := s0;
    while |rounds| < Budget
      invariant |rounds| <= Budget
      invariant Faithful(agent, run, prompt, s0, rounds, s)
      invariant msgs == Seed(prompt) + Transcript(rounds)
      invariant AllCalls(rounds)
    {
      var r, s' := Turn(prompt, agent, run, s0, rounds, s, msgs);
      LastRound(rounds, r);
      msgs := msgs + RoundMessages(r);
      rounds := rounds + [r];
      s := s';
      if r.reply.Final? {
        return Answered(r.reply.content), msgs, rounds, s;
      }
    }
    end := BudgetExceeded;
  }

  /** One round trip of `chat` (main.py:118-127): one request on the current
      transcript, then, for a reply with tool calls, one executor run per call. */
  method Turn<S>(prompt: string, agent: seq<Message> -> Reply, run: (S, string) -> (S, string),
                 s0: S, rounds: seq<Round>, s: S, msgs: seq<Message>)
    returns (r: Round, s': S)
    requires Faithful(agent, run, prompt, s0, rounds, s)
    requires msgs == Seed(prompt) + Transcript(rounds)
    ensures r.reply == agent(msgs)
    ensures Faithful(agent, run, prompt, s0, rounds + [r], s')
    ensures msgs + RoundMessages(r) == Seed(prompt) + Transcript(rounds + [r])
  {
    var reply := agent(msgs);
    var results;
    if reply.Final? {
      results, s' := [], s;
    } else {
      results, s' := RunCalls(reply.calls, run, s);
    }
    r := Round(reply, results);
    FaithfulStep(agent, run, prompt, s0, rounds, s, r, s');
  }

  /** Appending a round: the earlier rounds are the prefix, the new one is last,
      and the rounds stay all tool-call rounds as long as the new one is. */
  lemma LastRound(rounds: seq<Round>, r: Round)
    requires AllCalls(rounds)
    ensures (rounds + [r])[..|rounds|] == rounds
    ensures (rounds + [r])[|rounds|] == r
    ensures r.reply.Calls? ==> AllCalls(rounds + [r])
  {
    assert (rounds + [r])[..|rounds|] == rounds;
  }

  /** The transcript is only ever appended to: the transcript the agent saw at
      each request is a prefix of every later one. */
  lemma {:induction false} TranscriptGrows(rounds: seq<Round>, i: nat, j: nat)
    requires AllComplete(rounds)
    requires i <= j <= |rounds|
    ensures Transcript(rounds[..i]) <= Transcript(rounds[..j])
    decreases j - i
  {
    if i < j {
      TranscriptGrows(rounds, i, j - 1);
      assert rounds[..j][..j - 1] == rounds[..j - 1];
    }
  }

  /** Each round trip appends exactly one message per tool call after the
      reply, and the k-th of them answers the k-th call by its id. */
  lemma RoundCorrelates(r: Round, k: nat)
    requires Complete(r) && r.reply.Calls? && k < |r.reply.calls|
    ensures |RoundMessages(r)| == 1 + |r.reply.calls|
    ensures RoundMessages(r)[0] == Assistant(r.reply)
    ensures RoundMessages(r)[1 + k] == Tool(r.reply.calls[k].id, ToolName, r.results[k])
  {
  }
}

=== FILE: columns.dfy ===
/**
 The column-name normaliser `_clean` (main.py:39-40) and the cleaned header of
 an import (main.py:50).
 */
module Columns {
  import opened Strings

  /** `col.strip().replace(" ", "_").replace("-", "_").replace(".", "")`. */
  function Clean(col: string): (r: string)
    ensures ' ' !in r && '-' !in r && '.' !in r
    ensures |r| == |Strip(col)| - Count(Strip(col), '.')
    ensures forall x :: x in r && x != '_' ==> x in col
  {
    var t := Strip(col);
    var spaces := ReplaceChar(t, ' ', '_');
    var hyphens := ReplaceChar(spaces, '-', '_');
    assert ' ' !in hyphens by {
      forall i | 0 <= i < |hyphens| ensures hyphens[i] != ' ' {
        assert spaces[i] != ' ';
      }
    }
    assert '-' !in hyphens by {
      forall i | 0 <= i < |hyphens| ensures hyphens[i] != '-' {}
    }
    assert forall x :: x in t ==> x in col by {
      var i := StripMiddle(col);
      forall x | x in t ensures x in col {
        var k :| 0 <= k < |t| && t[k] == x;
        assert col[i + k] == x;
      }
    }
    assert forall x :: x in hyphens && x != '_' ==> x in t by {
      forall x | x in hyphens && x != '_' ensures x in t {
        var i :| 0 <= i < |hyphens| && hyphens[i] == x;
        assert spaces[i] == x;
        assert t[i] == x;
      }
    }
    CountAfterReplace(t, ' ', '_', '.');
    CountAfterReplace(spaces, '-', '_', '.');
    DeleteChar(hyphens, '.')
  }

  /** What `_clean` does to one character of the stripped label. */
  function CleanChar(c: char): string
  {
    if c == ' ' || c == '-' then "_" else if c == '.' then "" else [c]
  }

  /** A one-pass reference for the three chained replacements: every character
      of the stripped label is handled on its own, left to right. */
  function CleanEach(t: string): string
  {
    if |t| == 0 then [] else CleanChar(t[0]) + CleanEach(t[1..])
  }

  lemma {:induction false} ChainIsCharwise(t: string)
    ensures DeleteChar(ReplaceChar(ReplaceChar(t, ' ', '_'), '-', '_'), '.') == CleanEach(t)
  {
    if |t| > 0 {
      var spaces := ReplaceChar(t, ' ', '_');
      var hyphens := ReplaceChar(spaces, '-', '_');
      assert spaces[1..] == ReplaceChar(t[1..], ' ', '_');
      assert hyphens[1..] == ReplaceChar(spaces[1..], '-', '_');
      ChainIsCharwise(t[1..]);
    }
  }

  /** `_clean` keeps every character of the stripped label other than a space,
      hyphen or period, in order; maps each space and hyphen to `_`; and drops
      each period. */
  lemma CleanIsCharwise(col: string)
    ensures Clean(col) == CleanEach(Strip(col))
  {
    ChainIsCharwise(Strip(col));
  }

  lemma {:induction false} CountAll(s: string, c: char)
    ensures Count(s, c) == |s| <==> forall i :: 0 <= i < |s| ==> s[i] == c
  {
    if |s| > 0 {
      CountAll(s[1..], c);
      if Count(s, c) == |s| {
        forall i | 0 <= i < |s| ensures s[i] == c {
          if i > 0 { assert s[i] == s[1..][i - 1]; }
        }
      }
    }
  }

  /** `_clean` does not guard against an empty identifier: it returns "" exactly
      when the stripped label consists of periods only (for instance "." or " . "). */
  lemma CleanEmpty(col: string)
    ensures Clean(col) == "" <==> forall i :: 0 <= i < |Strip(col)| ==> Strip(col)[i] == '.'
  {
    var t := Strip(col);
    CountAll(t, '.');
    assert |Clean(col)| == |t| - Count(t, '.');
    assert Clean(col) == "" <==> Count(t, '.') == |t|;
    assert t == Strip(col);
  }

  /** A label that is already a clean identifier is returned unchanged. */
  lemma CleanFixpoint(col: string)
    requires Trimmed(col)
    requires ' ' !in col && '-' !in col && '.' !in col
    ensures Clean(col) == col
  {
    StripTrimmed(col);
    CleanIsCharwise(col);
    CleanEachIdentity(col);
  }

  lemma {:induction false} CleanEachIdentity(t: string)
    requires ' ' !in t && '-' !in t && '.' !in t
    ensures CleanEach(t) == t
  {
    if |t| > 0 {
      assert t[0] in t;
      assert forall c :: c in t[1..] ==> c in t;
      CleanEachIdentity(t[1..]);
    }
  }

  /** Applying `_clean` to its own result changes nothing whenever that result
      has no surrounding whitespace. */
  lemma CleanIdempotentWhenTrimmed(col: string)
    requires Trimmed(Clean(col))
    ensures Clean(Clean(col)) == Clean(col)
  {
    CleanFixpoint(Clean(col));
  }

  /** The strip happens before the periods are deleted, so whitespace that only
      a trailing period kept inside the label survives: the result can end in
      whitespace, and cleaning it again changes it. */
  lemma CleanCanLeaveSurroundingSpace(x: char, w: char)
    requires !IsSpace(x) && x != '-' && x != '.'
    requires IsSpace(w) && w != ' '
    ensures Clean([x, w, '.']) == [x, w]
    ensures !Trimmed(Clean([x, w, '.']))
    ensures Clean(Clean([x, w, '.'])) == [x]
  {
    CleanSpaceBeforePeriod(x, w);
    CleanTrailingSpace(x, w);
  }

  lemma CleanSpaceBeforePeriod(x: char, w: char)
    requires !IsSpace(x) && x != '-' && x != '.'
    requires IsSpace(w) && w != ' '
    ensures Clean([x, w, '.']) == [x, w]
  {
    var s := [x, w, '.'];
    StripTrimmed(s);
    CleanIsCharwise(s);
    assert s[1..] == [w, '.'];
    assert s[1..][1..] == ['.'];
  }

  lemma CleanTrailingSpace(x: char, w: char)
    requires !IsSpace(x) && x != '-' && x != '.'
    requires IsSpace(w)
    ensures Clean([x, w]) == [x]
  {
    var t := [x, w];
    RStripUnique([x], [w]);
    assert [x] + [w] == t;
    assert Strip(t) == [x];
    CleanIsCharwise(t);
  }

  /** The cleaned header: every raw header field cleaned, in header order. */
  function Header(raw: seq<string>): (h: seq<string>)
    ensures |h| == |raw|
    ensures forall i :: 0 <= i < |raw| ==> h[i] == Clean(raw[i])
  {
    seq(|raw|, i requires 0 <= i < |raw| => Clean(raw[i]))
  }
}

=== FILE: decimal.dfy ===
/**
 Decimal rendering of a non-negative integer, as Python's f-string `{n}` does
 for the change count in a mutation's confirmation text, together with the
 reading back of such a rendering.
 */
module Decimal {

  predicate IsDigit(c: char) { '0' <= c <= '9' }

  function DigitChar(d: nat): (c: char)
    requires d < 10
    ensures IsDigit(c)
  {
    ('0' as int + d) as char
  }

  function DigitValue(c: char): (d: nat)
    requires IsDigit(c)
    ensures d < 10
  {
    c as int - '0' as int
  }

  /** `str(n)`: the shortest decimal numeral for `n`. */
  function NatToString(n: nat): (s: string)
    ensures |s| > 0
    ensures forall i :: 0 <= i < |s| ==> IsDigit(s[i])
    ensures s[0] == '0' ==> n == 0 && |s| == 1
  {
    if n < 10 then [DigitChar(n)] else NatToString(n / 10) + [DigitChar(n % 10)]
  }

  /** `int(s)` for a string made only of decimal digits. */
  function ParseDigits(s: string): nat
    requires forall i :: 0 <= i < |s| ==> IsDigit(s[i])
  {
    if |s| == 0 then 0 else ParseDigits(s[..|s| - 1]) * 10 + DigitValue(s[|s| - 1])
  }

  /** Reading the numeral back gives the number: the rendering loses nothing. */
  lemma {:induction false} ParseNatToString(n: nat)
    ensures ParseDigits(NatToString(n)) == n
  {
    var s := NatToString(n);
    if n >= 10 {
      assert s[..|s| - 1] == NatToString(n / 10);
      ParseNatToString(n / 10);
    }
  }

  /** Hence distinct counts are rendered as distinct numerals. */
  lemma NatToStringInjective(m: nat, n: nat)
    requires NatToString(m) == NatToString(n)
    ensures m == n
  {
    ParseNatToString(m);
    ParseNatToString(n);
  }
}

=== FILE: entry.dfy ===
/**
 The entry dispatch of `main` (main.py:137-156): import when the store is not
 ready and stop if that fails, then either one `chat` call for the
 command-line question or the interactive loop over input lines. The loop's
 `chat` calls are recorded as the questions they receive; end of input
 (`EOFError`) is the end of the line sequence.
 */
module Entry {
  import opened Optional
  import opened Strings
  import opened Importer

  /** `line.lower() in {"exit", "quit"}` (main.py:151). */
  predicate IsQuit(line: string)
  {
    Lower(line) == "exit" || Lower(line) == "quit"
  }

  /** Each input line with surrounding whitespace removed, as
      `input("You: ").strip()` leaves it. */
  function Stripped(lines: seq<string>): (ts: seq<string>)
    ensures |ts| == |lines|
  {
    if |lines| == 0 then [] else Stripped(lines[..|lines| - 1]) + [Strip(lines[|lines| - 1])]
  }

  lemma {:induction false} StrippedAt(lines: seq<string>, i: nat)
    requires i < |lines|
    ensures Stripped(lines)[i] == Strip(lines[i])
    ensures Trimmed(Stripped(lines)[i])
  {
    var n := |lines| - 1;
    if i < n {
      assert lines[..n][i] == lines[i];
      StrippedAt(lines[..n], i);
    }
  }

  lemma {:induction false} StrippedAppend(a: seq<string>, b: seq<string>)
    ensures Stripped(a + b) == Stripped(a) + Stripped(b)
  {
    if |b| == 0 {
      assert a + b == a;
    } else {
      var n := |b| - 1;
      assert (a + b)[..|a + b| - 1] == a + b[..n];
      StrippedAppend(a, b[..n]);
    }
  }

  /** What the interactive loop makes of one stripped input line. */
  datatype LineKind = Quit | Blank | Question(text: string)

  function Classify(t: string): (k: LineKind)
    ensures k == Quit <==> IsQuit(t)
    ensures k == Blank <==> !IsQuit(t) && t == ""
    ensures k.Question? ==> k.text == t && t != "" && !IsQuit(t)
  {
    if IsQuit(t) then Quit else if t == "" then Blank else Question(t)
  }

  function Kinds(ts: seq<string>): (ks: seq<LineKind>)
    ensures |ks| == |ts|
    ensures forall i :: 0 <= i < |ts| ==> ks[i] == Classify(ts[i])
  {
    seq(|ts|, i requires 0 <= i < |ts| => Classify(ts[i]))
  }

  /** The position of the first quit word, or the number of lines when there
      is none. */
  function StopAt(ks: seq<LineKind>): (k: nat)
    ensures k <= |ks|
    ensures forall i :: 0 <= i < k ==> ks[i] != Quit
    ensures k < |ks| ==> ks[k] == Quit
  {
    if |ks| == 0 || ks[0] == Quit then 0 else 1 + StopAt(ks[1..])
  }

  /** The questions among the lines, in input order. */
  function Asked(ks: seq<LineKind>): seq<string>
  {
    if |ks| == 0 then []
    else (if ks[0].Question? then [ks[0].text] else []) + Asked(ks[1..])
  }

  /** The questions asked over a run of stripped lines: those before the
      first quit word. */
  function Questions(ts: seq<string>): seq<string>
  {
    var ks := Kinds(ts);
    Asked(ks[..StopAt(ks)])
  }

  /** The questions the interactive loop passes to `chat`. */
  function Prompts(lines: seq<string>): seq<string>
  {
    Questions(Stripped(lines))
  }

  lemma {:induction false} AskedAppend(a: seq<LineKind>, b: seq<LineKind>)
    ensures Asked(a + b) == Asked(a) + Asked(b)
  {
    if |a| > 0 {
      assert (a + b)[0] == a[0];
      assert (a + b)[1..] == a[1..] + b;
      AskedAppend(a[1..], b);
    } else {
      assert a + b == b;
    }
  }

  /** The interactive loop (main.py:148-156). */
  method Interactive(lines: seq<string>) returns (questions: seq<string>)
    ensures questions == Prompts(lines)
  {
    ghost var ts := Stripped(lines);
    questions := [];
    var i := 0;
    while i < |lines|
      invariant i <= |lines|
      invariant StopAt(Kinds(ts[..i])) == i
      invariant questions == Questions(ts[..i])
    {
      var line := Strip(lines[i]);
      StrippedAt(lines, i);
      var kind := Classify(line);
      QuestionsStep(ts, i);
      if kind == Quit {
        return;
      }
      if kind.Question? {
        questions := questions + [kind.text];
      }
      i := i + 1;
    }
    assert ts[..i] == ts;
  }

  /** One turn of the interactive loop: a quit word settles the questions
      asked so far; any other line adds its question, if it has one. */
  lemma QuestionsStep(ts: seq<string>, i: nat)
    requires i < |ts| && StopAt(Kinds(ts[..i])) == i
    ensures IsQuit(ts[i]) ==> Questions(ts) == Questions(ts[..i])
    ensures !IsQuit(ts[i]) ==> StopAt(Kinds(ts[..i + 1])) == i + 1
    ensures !IsQuit(ts[i]) && ts[i] != "" ==> Questions(ts[..i + 1]) == Questions(ts[..i]) + [ts[i]]
    ensures !IsQuit(ts[i]) && ts[i] == "" ==> Questions(ts[..i + 1]) == Questions(ts[..i])
  {
    var a := ts[..i];
    var ka := Kinds(a);
    forall j | 0 <= j < |a| ensures !IsQuit(a[j]) {
      assert ka[j] != Quit;
    }
    assert ka[..StopAt(ka)] == ka;
    if IsQuit(ts[i]) {
      assert ts == a + [ts[i]] + ts[i + 1..];
      QuitEndsSession(a, ts[i], ts[i + 1..]);
    } else {
      assert ts[..i + 1] == a + [ts[i]];
      QuestionsAppend(a, [ts[i]]);
      NoQuitRunsThrough(ts[..i + 1]);
      var kb := Kinds([ts[i]]);
      assert kb[..StopAt(kb)] == kb;
      assert Asked(kb) == (if kb[0].Question? then [kb[0].text] else []) + Asked(kb[1..]);
    }
  }

  /** Every question is a non-blank line that is not a quit word. */
  lemma {:induction false} AskedAreQuestions(ts: seq<string>)
    ensures forall q :: q in Asked(Kinds(ts)) ==> q != "" && !IsQuit(q) && q in ts
  {
    if |ts| > 0 {
      var ks := Kinds(ts);
      assert ks[1..] == Kinds(ts[1..]);
      AskedAreQuestions(ts[1..]);
    }
  }

  /** Every question passed to `chat` is a stripped, non-blank input line
      that is not a quit word. */
  lemma PromptsAreQuestions(lines: seq<string>)
    ensures forall q :: q in Prompts(lines) ==>
      q != "" && Trimmed(q) && !IsQuit(q) && exists i :: 0 <= i < |lines| && q == Strip(lines[i])
  {
    var ts := Stripped(lines);
    var ks := Kinds(ts);
    var k := StopAt(ks);
    assert ks[..k] == Kinds(ts[..k]);
    AskedAreQuestions(ts[..k]);
    forall q | q in Prompts(lines)
      ensures Trimmed(q) && exists i :: 0 <= i < |lines| && q == Strip(lines[i])
    {
      var i :| 0 <= i < k && q == ts[..k][i];
      StrippedAt(lines, i);
    }
  }

  lemma {:induction false} StopAtAppend(a: seq<LineKind>, b: seq<LineKind>)
    requires StopAt(a) == |a|
    ensures StopAt(a + b) == |a| + StopAt(b)
  {
    if |a| > 0 {
      assert (a + b)[0] == a[0];
      assert (a + b)[1..] == a[1..] + b;
      StopAtAppend(a[1..], b);
    } else {
      assert a + b == b;
    }
  }

  lemma KindsAppend(a: seq<string>, b: seq<string>)
    ensures Kinds(a + b) == Kinds(a) + Kinds(b)
  {
  }

  lemma NoQuitRunsThrough(ts: seq<string>)
    requires forall i :: 0 <= i < |ts| ==> !IsQuit(ts[i])
    ensures StopAt(Kinds(ts)) == |ts|
  {
  }

  lemma QuestionsAppend(a: seq<string>, b: seq<string>)
    requires forall i :: 0 <= i < |a| ==> !IsQuit(a[i])
    ensures Questions(a + b) == Asked(Kinds(a)) + Questions(b)
  {
    var ka, kb := Kinds(a), Kinds(b);
    KindsAppend(a, b);
    NoQuitRunsThrough(a);
    StopAtAppend(ka, kb);
    assert (ka + kb)[..|ka| + StopAt(kb)] == ka + kb[..StopAt(kb)];
    AskedAppend(ka, kb[..StopAt(kb)]);
  }

  lemma QuitEndsSession(a: seq<string>, quit: string, b: seq<string>)
    requires forall i :: 0 <= i < |a| ==> !IsQuit(a[i])
    requires IsQuit(quit)
    ensures Questions(a + [quit] + b) == Asked(Kinds(a))
  {
    assert a + [quit] + b == a + ([quit] + b);
    QuestionsAppend(a, [quit] + b);
    assert Kinds([quit] + b)[0] == Quit;
  }

  /** Lines before any quit word each contribute their question, in order,
      ahead of the questions of later lines. */
  lemma PromptsAppend(a: seq<string>, b: seq<string>)
    requires forall i :: 0 <= i < |a| ==> !IsQuit(Strip(a[i]))
    ensures Prompts(a + b) == Asked(Kinds(Stripped(a))) + Prompts(b)
  {
    StrippedAppend(a, b);
    var ta := Stripped(a);
    forall i | 0 <= i < |ta| ensures !IsQuit(ta[i]) {
      StrippedAt(a, i);
    }
    QuestionsAppend(ta, Stripped(b));
  }

  /** A quit word ends the session: nothing after it is read. */
  lemma PromptsStopAtQuit(a: seq<string>, quit: string, b: seq<string>)
    requires forall i :: 0 <= i < |a| ==> !IsQuit(Strip(a[i]))
    requires IsQuit(Strip(quit))
    ensures Prompts(a + [quit] + b) == Asked(Kinds(Stripped(a)))
  {
    assert a + [quit] + b == a + ([quit] + b);
    PromptsAppend(a, [quit] + b);
    StrippedAt([quit] + b, 0);
    assert Kinds(Stripped([quit] + b))[0] == Quit;
  }

  /** What `main` goes on to do after the readiness check. */
  datatype Launch =
    | Crashed                            // an exception escaped `import_csv`, and `main` with it
    | Aborted                            // the import failed: "Cannot continue without database/table."
    | OneShot(question: string)          // one `chat` call for the command-line question
    | Session(questions: seq<string>)    // one `chat` call per question of the interactive loop

  /** The import run at startup (none when the store was ready) and the launch. */
  datatype Startup = Startup(imported: Option<ImportOutcome>, launch: Launch)

  /** The questions `chat` is called with, in call order. */
  function ChatCalls(l: Launch): seq<string>
  {
    match l
    case Crashed => []
    case Aborted => []
    case OneShot(q) => [q]
    case Session(qs) => qs
  }

  /** `main()` once the import (if any) has finished: `args` are the words of
      the optional question and `lines` the interactive input lines up to end
      of input. */
  function Proceed(imported: Option<ImportOutcome>, args: seq<string>, lines: seq<string>): Launch
  {
    if imported.Some? && imported.value.result == Escaped then Crashed
    else if imported.Some? && imported.value.result == Failed then Aborted
    else
      var text := if |args| > 0 then Join(" ", args) else "";
      if text != "" then OneShot(text) else Session(Prompts(lines))
  }

  /** `main()` as written, after argument parsing: `ready` is `db_ready()`, and
      the file, reader and store answers feed `import_csv` as written, so an
      existing empty source file ends the program with the uncaught
      `StopIteration`. */
  function Start(ready: bool, found: bool, read: CsvRead, store: StoreAnswers,
                 args: seq<string>, lines: seq<string>): (r: Startup)
    ensures ready <==> r.imported.None?
    ensures r.imported.Some? ==> r.imported.value == ImportAsWritten(found, read, store)
    ensures r.launch.Crashed? <==> !ready && ImportAsWritten(found, read, store).result == Escaped
    ensures r.launch.Aborted? <==> !ready && ImportAsWritten(found, read, store).result == Failed
    ensures r.launch.OneShot? <==> (ready || ImportAsWritten(found, read, store).result == Imported)
                                   && Join(" ", args) != ""
    ensures r.launch.OneShot? ==> r.launch.question == Join(" ", args)
    ensures r.launch.Session? ==> r.launch.questions == Prompts(lines)
  {
    var imported := if ready then None else Some(ImportAsWritten(found, read, store));
    Startup(imported, Proceed(imported, args, lines))
  }

  /** `main()` on the corrected import, which reports an empty source file as
      a failed import: the program never crashes. */
  function StartCorrected(ready: bool, found: bool, read: CsvRead, store: StoreAnswers,
                          args: seq<string>, lines: seq<string>): (r: Startup)
    ensures !r.launch.Crashed?
    ensures ready <==> r.imported.None?
    ensures r.imported.Some? ==> r.imported.value == Import(found, read, store)
    ensures r.launch.Aborted? <==> !ready && Import(found, read, store).result != Imported
    ensures r.launch.OneShot? <==> !r.launch.Aborted? && Join(" ", args) != ""
    ensures r.launch.OneShot? ==> r.launch.question == Join(" ", args)
    ensures r.launch.Session? ==> r.launch.questions == Prompts(lines)
  {
    var imported := if ready then None else Some(Import(found, read, store));
    Startup(imported, Proceed(imported, args, lines))
  }

  /** An existing but empty source file, with the store not ready, crashes
      `main` before any chat. */
  lemma EmptySourceCrashes(store: StoreAnswers, args: seq<string>, lines: seq<string>)
    requires store.connects
    ensures Start(false, true, NoRecords, store, args, lines).launch == Crashed
    ensures ChatCalls(Start(false, true, NoRecords, store, args, lines).launch) == []
    ensures StartCorrected(false, true, NoRecords, store, args, lines).launch == Aborted
  {
  }

  /** Apart from the empty source file, the corrected program starts exactly
      like the program as written. */
  lemma StartsAgree(ready: bool, found: bool, read: CsvRead, store: StoreAnswers,
                    args: seq<string>, lines: seq<string>)
    requires !read.NoRecords?
    ensures StartCorrected(ready, found, read, store, args, lines) == Start(ready, found, read, store, args, lines)
  {
    ImportMatchesAsWritten(found, read, store);
  }

  /** If the store is not ready and the import does not succeed, `chat` is
      never called. */
  lemma FailedImportNeverChats(found: bool, read: CsvRead, store: StoreAnswers, args: seq<string>, lines: seq<string>)
    requires ImportAsWritten(found, read, store).result != Imported
    ensures ChatCalls(Start(false, found, read, store, args, lines).launch) == []
  {
  }

  /** A missing source file in particular stops the program before any chat. */
  lemma MissingSourceNeverChats(read: CsvRead, store: StoreAnswers, args: seq<string>, lines: seq<string>)
    ensures Start(false, false, read, store, args, lines).launch == Aborted
    ensures Start(false, false, read, store, args, lines).imported == Some(ImportOutcome([], Failed))
  {
  }

  /** The interactive loop is entered exactly when the joined question is
      empty: no words, or a single empty word. Two empty words join to " ",
      which is asked as a one-shot question. */
  lemma InteractiveIffNoQuestion(ready: bool, found: bool, read: CsvRead, store: StoreAnswers,
                                 args: seq<string>, lines: seq<string>)
    requires ready || ImportAsWritten(found, read, store).result == Imported
    ensures Start(ready, found, read, store, args, lines).launch.Session?
        <==> |args| == 0 || (|args| == 1 && args[0] == "")
  {
    JoinEmpty(" ", args);
  }

  /** With a non-empty question on the command line, `chat` runs exactly once. */
  lemma OneShotChatsOnce(ready: bool, found: bool, read: CsvRead, store: StoreAnswers,
                         args: seq<string>, lines: seq<string>)
    requires ready || ImportAsWritten(found, read, store).result == Imported
    requires Join(" ", args) != ""
    ensures ChatCalls(Start(ready, found, read, store, args, lines).launch) == [Join(" ", args)]
  {
  }
}

=== FILE: importer.dfy ===
/**
 `import_csv` (main.py:43-64): the order in which it consults the file, the
 store and the reader, the statements it issues, and its success flag. The
 file system, `csv.reader` and SQLite are oracles: their answers are inputs.
 */
module Importer {
  import opened Columns
  import opened Statements

  /** What `csv.reader` produces from the source file. */
  datatype CsvRead =
    | Records(header: seq<string>, rows: seq<seq<string>>)  // a first record, then the data records
    | NoRecords                                             // an empty file: `next(rdr)` has nothing to return
    | HeaderError                                           // `csv.Error` while reading the first record

  /** The store's answers: whether the connection opens, whether the
      drop-and-create script runs, and whether the batched insert (which also
      consumes the rest of the reader) runs. */
  datatype StoreAnswers = StoreAnswers(connects: bool, scriptOk: bool, batchOk: bool)

  datatype Statement =
    | Script(sql: string)
    | Batch(sql: string, rows: seq<seq<string>>)

  /** `True`, `False`, or an exception that leaves `import_csv` uncaught. */
  datatype ImportResult = Imported | Failed | Escaped

  datatype ImportOutcome = ImportOutcome(issued: seq<Statement>, result: ImportResult)

  /** The statements for a file whose first record is `raw`: the script first,
      and the insert only if the script ran. */
  function Load(raw: seq<string>, rows: seq<seq<string>>, store: StoreAnswers): ImportOutcome
  {
    var header := Header(raw);
    var script := Script(CreateScript(Table, header));
    if !store.scriptOk then ImportOutcome([script], Failed)
    else
      ImportOutcome([script, Batch(InsertStatement(Table, header), rows)],
                    if store.batchOk then Imported else Failed)
  }

  /** `import_csv` as written: an empty file makes `next(rdr)` raise
      `StopIteration`, which the `except (csv.Error, sqlite3.Error)` clause does
      not catch. */
  function ImportAsWritten(found: bool, read: CsvRead, store: StoreAnswers): (o: ImportOutcome)
    ensures o.result == Escaped <==> found && store.connects && read.NoRecords?
    ensures o.result == Imported <==> found && read.Records? && store.connects && store.scriptOk && store.batchOk
    ensures |o.issued| > 0 <==> found && read.Records? && store.connects
  {
    if !found then ImportOutcome([], Failed)
    else if !store.connects then ImportOutcome([], Failed)
    else match read
      case NoRecords => ImportOutcome([], Escaped)
      case HeaderError => ImportOutcome([], Failed)
      case Records(raw, rows) => Load(raw, rows, store)
  }

  /** An existing but empty source file escapes `import_csv` as an exception
      instead of being reported as a failed import. */
  lemma EmptySourceEscapes(store: StoreAnswers)
    requires store.connects
    ensures ImportAsWritten(true, NoRecords, store).result == Escaped
    ensures ImportAsWritten(true, NoRecords, store).issued == []
  {
  }

  /** `import_csv` with the empty file reported like every other unreadable
      source: a failed import that issued no statement. */
  function Import(found: bool, read: CsvRead, store: StoreAnswers): (o: ImportOutcome)
    ensures o.result != Escaped
    ensures !found ==> o == ImportOutcome([], Failed)
    ensures o.result == Imported <==> found && read.Records? && store.connects && store.scriptOk && store.batchOk
    ensures |o.issued| <= 2
    ensures |o.issued| > 0 <==> found && read.Records? && store.connects
    ensures |o.issued| > 0 ==> o.issued[0] == Script(CreateScript(Table, Header(read.header)))
    ensures |o.issued| == 2 <==> found && read.Records? && store.connects && store.scriptOk
    ensures |o.issued| == 2 ==> o.issued[1] == Batch(InsertStatement(Table, Header(read.header)), read.rows)
  {
    if found && store.connects && read.NoRecords? then ImportOutcome([], Failed)
    else ImportAsWritten(found, read, store)
  }

  /** Apart from the empty file, the corrected import is the import as written. */
  lemma ImportMatchesAsWritten(found: bool, read: CsvRead, store: StoreAnswers)
    requires !read.NoRecords?
    ensures Import(found, read, store) == ImportAsWritten(found, read, store)
  {
  }
}

=== FILE: optional.dfy ===
/** A minimal Some/None datatype used by the parsers and the entry orchestration. */
module Optional {

  datatype Option<+T> = None | Some(value: T)

}

=== FILE: query.dfy ===
/**
 `run_sql_query` (main.py:81-93): the readiness gate, the syntactic read/write
 classification, the conversion of result rows to dictionaries, the 20-row
 cut, the reply texts, and the `TypeError` that `json.dumps` raises on a BLOB
 value. SQLite (readiness, execution, commit, the change count) and the text
 `json.dumps` produces are oracles carried by a `Store` value.
 */
module Query {
  import opened Optional
  import opened Strings
  import opened Decimal

  datatype SqlValue = Null | Integer(i: int) | Real(r: real) | Text(t: string) | Blob(bytes: seq<bv8>)

  /** A Python `dict` from column name to value, as its entries in insertion order. */
  type Record = seq<(string, SqlValue)>

  /** What executing one statement on a fresh connection yields: an
      `sqlite3.Error` (raised by `execute`, by fetching, or by `commit`), or the
      cursor's column names and rows together with the connection's
      `total_changes` after the statement. */
  datatype Exec =
    | SqlFailed(message: string)
    | Executed(columns: seq<string>, rows: seq<seq<SqlValue>>, totalChanges: nat)

  /** The store as `run_sql_query` sees it, over an abstract store state `S`:
      `db_ready()`, executing a statement, and `json.dumps(..., indent=2)`. */
  datatype Store<!S> = Store(ready: S -> bool, execute: (S, string) -> (S, Exec), dumps: seq<Record> -> string)

  /** The reply text, or the `TypeError` that escapes `run_sql_query` (nothing
      in `chat` or `main` catches it either); with the store state afterwards
      and the statements sent to the store (none, or the query itself). */
  datatype Answer<S> =
    | Replied(state: S, text: string, sent: seq<string>)
    | Raised(state: S, sent: seq<string>)

  const NotReady: string := "Database not initialised."
  const NoRows: string := "No rows."
  const ErrorPrefix: string := "SQL error: "
  const RowLimit: nat := 20

  /** `json.dumps` of a list always produces text that opens with `[`,
      in particular `"[]"` for the empty list. */
  ghost predicate SerialisesLists<S>(store: Store<S>)
  {
    forall rs :: |store.dumps(rs)| > 0 && store.dumps(rs)[0] == '['
  }

  function Min(a: nat, b: nat): nat { if a <= b then a else b }

  // ---------------------------------------------------------------- classification

  /** `query.lstrip().upper().startswith("SELECT")` (main.py:87). */
  predicate IsRead(q: string)
  {
    StartsWith(Upper(LStrip(q)), "SELECT")
  }

  /** The read test stated without `lstrip`: some whitespace prefix is followed
      by the six letters of SELECT in any case. */
  ghost predicate SelectAfterSpace(q: string)
  {
    exists k :: 0 <= k && k + 6 <= |q| && AllSpace(q[..k]) && Upper(q[k..k + 6]) == "SELECT"
  }

  lemma UpperSlice(s: string, i: nat, j: nat)
    requires i <= j <= |s|
    ensures Upper(s[i..j]) == Upper(s)[i..j]
  {
    forall k | 0 <= k < j - i ensures Upper(s[i..j])[k] == Upper(s)[i..j][k] {
      assert s[i..j][k] == s[i + k];
    }
  }

  /** A statement takes the read path if and only if, after leading whitespace,
      it starts with SELECT in any letter case. */
  lemma IsReadIffSelectAfterSpace(q: string)
    ensures IsRead(q) <==> SelectAfterSpace(q)
  {
    if IsRead(q) {
      ReadIsSelectAfterSpace(q);
    }
    if SelectAfterSpace(q) {
      var k :| 0 <= k && k + 6 <= |q| && AllSpace(q[..k]) && Upper(q[k..k + 6]) == "SELECT";
      SelectAfterSpaceIsRead(q, k);
    }
  }

  lemma ReadIsSelectAfterSpace(q: string)
    requires IsRead(q)
    ensures SelectAfterSpace(q)
  {
    var t := LStrip(q);
    var k := |q| - |t|;
    assert q[k..] == t;
    UpperSlice(q, k, k + 6);
    UpperSlice(t, 0, 6);
    assert q[k..k + 6] == t[..6];
    assert Upper(q[k..k + 6]) == "SELECT";
  }

  lemma SelectAfterSpaceIsRead(q: string, k: nat)
    requires k + 6 <= |q| && AllSpace(q[..k]) && Upper(q[k..k + 6]) == "SELECT"
    ensures IsRead(q)
  {
    assert UpperChar(q[k]) == Upper(q[k..k + 6])[0];
    assert !IsSpace(q[k]);
    assert q == q[..k] + q[k..];
    LStripUnique(q[..k], q[k..]);
    var t := LStrip(q);
    assert t == q[k..];
    UpperSlice(t, 0, 6);
    assert t[..6] == q[k..k + 6];
  }

  /** Only the first non-blank word decides: a common table expression or a
      leading comment sends even a pure query down the write path. */
  lemma ReadNeedsLeadingSelect(q: string)
    requires IsRead(q)
    ensures exists k :: 0 <= k < |q| && AllSpace(q[..k]) && (q[k] == 's' || q[k] == 'S')
  {
    var t := LStrip(q);
    var k := |q| - |t|;
    assert Upper(t)[0] == 'S';
    assert q[k] == t[0];
  }

  // ---------------------------------------------------------------- rows as dicts

  /** The value a key holds in a record, if any. */
  function Get(d: Record, k: string): Option<SqlValue>
  {
    if |d| == 0 then None else if d[0].0 == k then Some(d[0].1) else Get(d[1..], k)
  }

  predicate DistinctKeys(d: Record)
  {
    forall i, j :: 0 <= i < j < |d| ==> d[i].0 != d[j].0
  }

  function Keys(d: Record): set<string>
  {
    set i | 0 <= i < |d| :: d[i].0
  }

  lemma KeysCons(x: (string, SqlValue), d: Record)
    ensures Keys([x] + d) == {x.0} + Keys(d)
    ensures DistinctKeys([x] + d) <==> x.0 !in Keys(d) && DistinctKeys(d)
  {
    var r := [x] + d;
    forall y | y in Keys(r) ensures y in {x.0} + Keys(d) {
      var i :| 0 <= i < |r| && r[i].0 == y;
      if i > 0 { assert d[i - 1].0 == y; }
    }
    assert r[0].0 in Keys(r);
    forall y | y in Keys(d) ensures y in Keys(r) {
      var i :| 0 <= i < |d| && d[i].0 == y;
      assert r[i + 1].0 == y;
    }
    if DistinctKeys(r) {
      forall i | 0 <= i < |d| ensures d[i].0 != x.0 {
        assert r[i + 1] == d[i];
      }
      forall i, j | 0 <= i < j < |d| ensures d[i].0 != d[j].0 {
        assert r[i + 1] == d[i] && r[j + 1] == d[j];
      }
    }
    if x.0 !in Keys(d) && DistinctKeys(d) {
      forall i, j | 0 <= i < j < |r| ensures r[i].0 != r[j].0 {
        if i == 0 {
          assert r[j].0 == d[j - 1].0 && d[j - 1].0 in Keys(d);
        } else {
          assert r[i] == d[i - 1] && r[j] == d[j - 1];
        }
      }
    }
  }

  /** `d[k] = v` on a Python dict: an existing key keeps its place and takes the
      new value; a new key is added last. */
  function Put(d: Record, k: string, v: SqlValue): (r: Record)
    requires DistinctKeys(d)
    ensures DistinctKeys(r)
    ensures Keys(r) == Keys(d) + {k}
    ensures Get(r, k) == Some(v)
    ensures forall k' :: k' != k ==> Get(r, k') == Get(d, k')
    ensures k in Keys(d) ==> |r| == |d| && forall i :: 0 <= i < |d| ==> r[i].0 == d[i].0
    ensures k !in Keys(d) ==> r == d + [(k, v)]
  {
    if |d| == 0 then
      KeysCons((k, v), []);
      [(k, v)]
    else if d[0].0 == k then
      PutFirst(d, v);
      [(k, v)] + d[1..]
    else
      var tail := Put(d[1..], k, v);
      PutLater(d, k, v, tail);
      [d[0]] + tail
  }

  /** What `d[k] = v` promises of the dictionary `r` it leaves. */
  ghost predicate Stored(d: Record, k: string, v: SqlValue, r: Record)
  {
    && DistinctKeys(r)
    && Keys(r) == Keys(d) + {k}
    && Get(r, k) == Some(v)
    && (forall k' :: k' != k ==> Get(r, k') == Get(d, k'))
    && (k in Keys(d) ==> |r| == |d| && forall i :: 0 <= i < |d| ==> r[i].0 == d[i].0)
    && (k !in Keys(d) ==> r == d + [(k, v)])
  }

  /** Storing under the first key replaces its value in place. */
  lemma PutFirst(d: Record, v: SqlValue)
    requires |d| > 0 && DistinctKeys(d)
    ensures Stored(d, d[0].0, v, [(d[0].0, v)] + d[1..])
  {
    assert d == [d[0]] + d[1..];
    KeysCons(d[0], d[1..]);
    KeysCons((d[0].0, v), d[1..]);
  }

  /** Storing under a later key leaves the first entry in front. */
  lemma PutLater(d: Record, k: string, v: SqlValue, tail: Record)
    requires |d| > 0 && DistinctKeys(d) && d[0].0 != k
    requires Stored(d[1..], k, v, tail)
    ensures Stored(d, k, v, [d[0]] + tail)
  {
    assert d == [d[0]] + d[1..];
    KeysCons(d[0], d[1..]);
    KeysCons(d[0], tail);
    if k !in Keys(d) {
      assert [d[0]] + (d[1..] + [(k, v)]) == d + [(k, v)];
    }
  }

  /** The value paired last with `k` in a sequence of pairs. */
  function LastValue(ps: seq<(string, SqlValue)>, k: string): Option<SqlValue>
  {
    if |ps| == 0 then None
    else if ps[|ps| - 1].0 == k then Some(ps[|ps| - 1].1)
    else LastValue(ps[..|ps| - 1], k)
  }

  /** `dict(pairs)`: the pairs inserted one after another. */
  function DictOf(ps: seq<(string, SqlValue)>): (d: Record)
    ensures DistinctKeys(d)
  {
    if |ps| == 0 then [] else Put(DictOf(ps[..|ps| - 1]), ps[|ps| - 1].0, ps[|ps| - 1].1)
  }

  /** A key of `dict(pairs)` holds the value it was paired with last; keys
      never paired are absent. */
  lemma {:induction false} DictOfKeepsLastValue(ps: seq<(string, SqlValue)>, k: string)
    ensures Get(DictOf(ps), k) == LastValue(ps, k)
  {
    if |ps| > 0 {
      DictOfKeepsLastValue(ps[..|ps| - 1], k);
    }
  }

  lemma LastKeyFresh(ps: seq<(string, SqlValue)>)
    requires |ps| > 0 && DistinctKeys(ps)
    ensures DistinctKeys(ps[..|ps| - 1])
    ensures ps[|ps| - 1].0 !in Keys(ps[..|ps| - 1])
  {
    var pre := ps[..|ps| - 1];
    forall i | 0 <= i < |pre| ensures pre[i].0 != ps[|ps| - 1].0 {
      assert pre[i] == ps[i];
    }
  }

  /** `dict(pairs)` over pairs with distinct keys is the pairs themselves, in
      the same order. */
  lemma {:induction false} DictOfDistinct(ps: seq<(string, SqlValue)>)
    requires DistinctKeys(ps)
    ensures DictOf(ps) == ps
  {
    if |ps| > 0 {
      var pre, last := ps[..|ps| - 1], ps[|ps| - 1];
      LastKeyFresh(ps);
      calc {
        DictOf(ps);
        Put(DictOf(pre), last.0, last.1);
        { DictOfDistinct(pre); }
        Put(pre, last.0, last.1);
        { PutFresh(pre, last.0, last.1); }
        pre + [last];
        { assert pre + [last] == ps; }
        ps;
      }
    }
  }

  lemma PutFresh(d: Record, k: string, v: SqlValue)
    requires DistinctKeys(d) && k !in Keys(d)
    ensures Put(d, k, v) == d + [(k, v)]
  {
  }

  /** `zip(names, values)`: pairs up to the shorter of the two. */
  function Zip(names: seq<string>, values: seq<SqlValue>): (ps: seq<(string, SqlValue)>)
    ensures |ps| == Min(|names|, |values|)
    ensures forall i :: 0 <= i < |ps| ==> ps[i] == (names[i], values[i])
  {
    seq(Min(|names|, |values|), i requires 0 <= i < Min(|names|, |values|) => (names[i], values[i]))
  }

  /** `dict(zip(names, row))` (main.py:88). */
  function ToRecord(names: seq<string>, row: seq<SqlValue>): (d: Record)
    ensures DistinctKeys(d)
    ensures forall k :: Get(d, k) == LastValue(Zip(names, row), k)
  {
    var ps := Zip(names, row);
    assert forall k :: Get(DictOf(ps), k) == LastValue(ps, k) by {
      forall k {
        DictOfKeepsLastValue(ps, k);
      }
    }
    DictOf(ps)
  }

  /** With distinct column names, a row's dictionary lists the columns in
      cursor order, each with its value, which is the order `json.dumps`
      writes them in. */
  lemma ToRecordOfDistinctNames(names: seq<string>, row: seq<SqlValue>)
    requires DistinctKeys(Zip(names, row))
    ensures ToRecord(names, row) == Zip(names, row)
  {
    DictOfDistinct(Zip(names, row));
  }

  /** One record per result row, in result order. */
  function Records(names: seq<string>, rows: seq<seq<SqlValue>>): (rs: seq<Record>)
    ensures |rs| == |rows|
    ensures forall i :: 0 <= i < |rows| ==> rs[i] == ToRecord(names, rows[i])
  {
    seq(|rows|, i requires 0 <= i < |rows| => ToRecord(names, rows[i]))
  }

  /** Some value of some record is a BLOB, which `json.dumps` cannot
      serialise: it raises `TypeError` instead. */
  predicate HoldsBlob(rs: seq<Record>)
  {
    exists i, j :: 0 <= i < |rs| && 0 <= j < |rs[i]| && rs[i][j].1.Blob?
  }

  /** `rows[:20]` (main.py:89). */
  function Shown(columns: seq<string>, rows: seq<seq<SqlValue>>): seq<Record>
  {
    Records(columns, rows)[..Min(RowLimit, |rows|)]
  }

  // ---------------------------------------------------------------- the executor

  /** The reply for a statement the store executed; `None` when `json.dumps`
      raises. */
  function Reply<S>(store: Store<S>, q: string, e: Exec): (r: Option<string>)
    ensures r.None? <==> e.Executed? && IsRead(q) && HoldsBlob(Shown(e.columns, e.rows))
    ensures SerialisesLists(store) && r.Some? ==> r.value != NoRows
  {
    match e
    case SqlFailed(message) => Some(ErrorPrefix + message)
    case Executed(columns, rows, changes) =>
      if IsRead(q) then
        var shown := Shown(columns, rows);
        if HoldsBlob(shown) then None
        else if store.dumps(shown) != "" then Some(store.dumps(shown)) else Some(NoRows)
      else Some("OK (" + NatToString(changes) + " changes)")
  }

  /** `run_sql_query(query)`. */
  function RunSqlQuery<S>(store: Store<S>, s: S, q: string): (a: Answer<S>)
    ensures !store.ready(s) ==> a == Replied(s, NotReady, [])
    ensures store.ready(s) ==> a.sent == [q] && a.state == store.execute(s, q).0
    ensures a.Raised? <==> && store.ready(s) && store.execute(s, q).1.Executed? && IsRead(q)
                           && HoldsBlob(Shown(store.execute(s, q).1.columns, store.execute(s, q).1.rows))
  {
    if !store.ready(s) then Replied(s, NotReady, [])
    else
      var r := store.execute(s, q);
      match Reply(store, q, r.1)
      case None => Raised(r.0, [q])
      case Some(text) => Replied(r.0, text, [q])
  }

  /** On the read path the reply is the serialisation of the first
      min(20, n) result rows, each as its dictionary, in result order; if one
      of those dictionaries holds a BLOB, the serialiser raises instead. */
  lemma ReadShowsFirstRows<S>(store: Store<S>, s: S, q: string)
    requires SerialisesLists(store)
    requires store.ready(s) && store.execute(s, q).1.Executed? && IsRead(q)
    ensures var e := store.execute(s, q).1;
            exists shown: seq<Record> ::
              && |shown| == Min(RowLimit, |e.rows|)
              && (forall i :: 0 <= i < |shown| ==> shown[i] == ToRecord(e.columns, e.rows[i]))
              && (HoldsBlob(shown) ==> RunSqlQuery(store, s, q).Raised?)
              && (!HoldsBlob(shown) ==> RunSqlQuery(store, s, q) == Replied(store.execute(s, q).0, store.dumps(shown), [q]))
  {
    var e := store.execute(s, q).1;
    var shown := Shown(e.columns, e.rows);
    ShownAreFirstRecords(e.columns, e.rows);
    assert store.dumps(shown) != "";
    if !HoldsBlob(shown) {
      assert Reply(store, q, e) == Some(store.dumps(shown));
    }
  }

  lemma ShownAreFirstRecords(columns: seq<string>, rows: seq<seq<SqlValue>>)
    ensures |Shown(columns, rows)| == Min(RowLimit, |rows|)
    ensures forall i :: 0 <= i < |Shown(columns, rows)| ==> Shown(columns, rows)[i] == ToRecord(columns, rows[i])
  {
  }

  /** `SELECT x'00'`: a BLOB in the first result row ends the program. */
  lemma SelectBlobRaises<S>(store: Store<S>, s: S, q: string, b: seq<bv8>)
    requires store.ready(s) && IsRead(q)
    requires store.execute(s, q).1 == Executed(["x'00'"], [[Blob(b)]], 0)
    ensures RunSqlQuery(store, s, q).Raised?
  {
    var e := store.execute(s, q).1;
    var shown: seq<Record> := Shown(e.columns, e.rows);
    assert Zip(["x'00'"], [Blob(b)]) == [("x'00'", Blob(b))];
    assert DictOf([("x'00'", Blob(b))]) == Put([], "x'00'", Blob(b));
    assert shown[0][0].1.Blob?;
  }

  /** `SELECT x'00' AS a, 1 AS a`: the later column of the same name replaces
      the BLOB in the row's dictionary, so the read is answered. */
  lemma RepeatedNameHidesBlob<S>(store: Store<S>, s: S, q: string, b: seq<bv8>)
    requires store.ready(s) && IsRead(q)
    requires store.execute(s, q).1 == Executed(["a", "a"], [[Blob(b), Integer(1)]], 0)
    ensures RunSqlQuery(store, s, q).Replied?
    ensures RunSqlQuery(store, s, q).text != NoRows ==> RunSqlQuery(store, s, q).text == store.dumps([[("a", Integer(1))]])
  {
    var e := store.execute(s, q).1;
    var shown: seq<Record> := Shown(e.columns, e.rows);
    var pairs := [("a", Blob(b)), ("a", Integer(1))];
    assert Zip(["a", "a"], [Blob(b), Integer(1)]) == pairs;
    assert pairs[..1] == [("a", Blob(b))];
    assert DictOf(pairs[..1]) == [("a", Blob(b))] by {
      assert pairs[..1][..0] == [];
    }
    var one: Record := [("a", Blob(b))];
    assert Put(one, "a", Integer(1)) == [("a", Integer(1))] + one[1..];
    assert DictOf(pairs) == [("a", Integer(1))];
    assert shown == [[("a", Integer(1))]];
    assert !HoldsBlob(shown);
  }

  /** A mutation is confirmed with the connection's change count. */
  lemma WriteReportsChanges<S>(store: Store<S>, s: S, q: string)
    requires store.ready(s) && store.execute(s, q).1.Executed? && !IsRead(q)
    ensures RunSqlQuery(store, s, q).Replied?
    ensures RunSqlQuery(store, s, q).text == "OK (" + NatToString(store.execute(s, q).1.totalChanges) + " changes)"
  {
    var e := store.execute(s, q).1;
    assert Reply(store, q, e) == Some("OK (" + NatToString(e.totalChanges) + " changes)");
  }

  /** Because `json.dumps` never returns an empty text, the "No rows." fallback
      is dead: no statement, store state or result ever produces it. */
  lemma NoRowsNeverReturned<S>(store: Store<S>, s: S, q: string)
    requires SerialisesLists(store)
    ensures RunSqlQuery(store, s, q).Replied? ==> RunSqlQuery(store, s, q).text != NoRows
  {
    var a := RunSqlQuery(store, s, q);
    if store.ready(s) {
      var e := store.execute(s, q).1;
      match e
      case SqlFailed(m) =>
        assert a.text[0] == 'S';
      case Executed(columns, rows, changes) =>
        if IsRead(q) {
          var shown := Shown(columns, rows);
          if !HoldsBlob(shown) {
            assert a.text == store.dumps(shown);
            assert a.text[0] == '[';
          }
        } else {
          assert a.text[0] == 'O';
        }
    } else {
      assert a.text[0] == 'D';
    }
  }

  /** The textual convention is unambiguous: a reply starts with "SQL error: "
      exactly when the store raised an error for the statement. */
  lemma ErrorPrefixIffFailure<S>(store: Store<S>, s: S, q: string)
    requires SerialisesLists(store)
    ensures RunSqlQuery(store, s, q).Replied? && StartsWith(RunSqlQuery(store, s, q).text, ErrorPrefix)
        <==> store.ready(s) && store.execute(s, q).1.SqlFailed?
    ensures store.ready(s) && store.execute(s, q).1.SqlFailed? ==>
              RunSqlQuery(store, s, q) == Replied(store.execute(s, q).0, ErrorPrefix + store.execute(s, q).1.message, [q])
  {
    var a := RunSqlQuery(store, s, q);
    if store.ready(s) {
      var e := store.execute(s, q).1;
      match e
      case SqlFailed(m) =>
        assert a.text == ErrorPrefix + m;
      case Executed(columns, rows, changes) =>
        if IsRead(q) {
          var shown := Shown(columns, rows);
          if !HoldsBlob(shown) {
            assert a.text == store.dumps(shown);
            assert a.text[0] == '[';
          }
        } else {
          assert a.text[0] == 'O';
        }
    } else {
      assert a.text[0] == 'D';
    }
  }
}

=== FILE: statements.dfy ===
/**
 The statement texts `import_csv` builds from the cleaned header
 (main.py:50-58): the quoted column list, the drop-and-create script and the
 batched insert with one `?` placeholder per column. Small parsers read the
 texts back, so that "both statements carry the header's columns in order"
 and "the insert has one placeholder per column" are round-trip facts.
 */
module Statements {
  import opened Optional
  import opened Strings
  import opened Columns

  /** The one target table (main.py:27). */
  const Table: string := "freelancer_earnings_bd"

  /** The source wraps identifiers in double quotes without escaping, so an
      identifier survives quoting only if it has no `"` of its own. */
  predicate Quotable(name: string)
  {
    '"' !in name
  }

  function Quote(name: string): string
  {
    "\"" + name + "\""
  }

  function QuoteAll(names: seq<string>): (q: seq<string>)
    ensures |q| == |names|
    ensures forall i :: 0 <= i < |names| ==> q[i] == Quote(names[i])
  {
    if |names| == 0 then [] else [Quote(names[0])] + QuoteAll(names[1..])
  }

  /** `", ".join(f'"{c}"' for c in header)` (main.py:51). */
  function ColumnList(header: seq<string>): (r: string)
    ensures r == "" <==> header == []
    ensures header != [] ==> r[0] == '"' && r[|r| - 1] == '"'
  {
    var q := QuoteAll(header);
    if q != [] then JoinEnds(", ", q); Join(", ", q) else Join(", ", q)
  }

  /** The `executescript` text (main.py:52-55). */
  function CreateScript(table: string, header: seq<string>): string
  {
    "DROP TABLE IF EXISTS \"" + table + "\";" + "CREATE TABLE \"" + table + "\" (" + ColumnList(header) + ");"
  }

  function Marks(n: nat): (m: seq<string>)
    ensures |m| == n
    ensures forall i :: 0 <= i < n ==> m[i] == "?"
  {
    if n == 0 then [] else ["?"] + Marks(n - 1)
  }

  /** `", ".join("?" for _ in header)` (main.py:56). */
  function Placeholders(n: nat): (r: string)
    ensures r == "" <==> n == 0
    ensures n > 0 ==> r[0] == '?' && r[|r| - 1] == '?'
  {
    var m := Marks(n);
    if n > 0 then JoinEnds(", ", m); Join(", ", m) else Join(", ", m)
  }

  /** The `executemany` text (main.py:57-58). */
  function InsertStatement(table: string, header: seq<string>): string
  {
    "INSERT INTO \"" + table + "\" (" + ColumnList(header) + ") VALUES (" + Placeholders(|header|) + ")"
  }

  /** The placeholder list holds exactly one `?` per column. */
  lemma {:induction false} PlaceholderCount(n: nat)
    ensures Count(Placeholders(n), '?') == n
  {
    if n >= 2 {
      PlaceholdersStep(n);
      PlaceholderCount(n - 1);
      CountOneMore(", ", Placeholders(n - 1));
    } else if n == 1 {
      assert Placeholders(n) == "?";
    }
  }

  lemma CountOneMore(sep: string, p: string)
    requires '?' !in sep
    ensures Count("?" + (sep + p), '?') == 1 + Count(p, '?')
  {
    CountConcat(sep, p, '?');
    CountConcat("?", sep + p, '?');
  }

  /** Two or more placeholders: a `?`, a separator, then the rest. */
  lemma PlaceholdersStep(n: nat)
    requires n >= 2
    ensures Placeholders(n) == "?" + (", " + Placeholders(n - 1))
    ensures Placeholders(n - 1)[0] == '?'
  {
    assert Marks(n)[1..] == Marks(n - 1);
    if n - 1 >= 2 {
      assert Marks(n - 1)[1..] == Marks(n - 2);
    }
  }

  // ---------------------------------------------------------------- reading back

  /** Reads the body of a quoted identifier whose opening quote is already
      consumed: the characters up to the next `"`, and the text after it. */
  function ReadName(s: string): (r: Option<(string, string)>)
    ensures r.Some? ==> |r.value.1| < |s|
  {
    if |s| == 0 then None
    else if s[0] == '"' then Some(([], s[1..]))
    else match ReadName(s[1..])
      case None => None
      case Some((name, rest)) => Some(([s[0]] + name, rest))
  }

  /** Reads a `"a", "b", ...` list off the front of `s`: the names and the text
      after the last closing quote. */
  function ParseNames(s: string): Option<(seq<string>, string)>
    decreases |s|
  {
    if |s| == 0 || s[0] != '"' then Some(([], s))
    else match ReadName(s[1..])
      case None => None
      case Some((name, after)) =>
        if StartsWith(after, ", ") then
          match ParseNames(after[2..])
          case None => None
          case Some((names, rest)) => Some(([name] + names, rest))
        else Some(([name], after))
  }

  /** Counts a `?, ?, ...` list off the front of `s`, returning the count and the
      text after the last `?`. */
  function ParseMarks(s: string): (nat, string)
    decreases |s|
  {
    if |s| == 0 || s[0] != '?' then (0, s)
    else if StartsWith(s[1..], ", ?") then
      var (n, rest) := ParseMarks(s[3..]);
      (n + 1, rest)
    else (1, s[1..])
  }

  datatype CreateShape = CreateShape(dropped: string, created: string, columns: seq<string>)
  datatype InsertShape = InsertShape(table: string, columns: seq<string>, markers: nat)

  const DropHead: string := "DROP TABLE IF EXISTS \""
  const CreateHead: string := ";CREATE TABLE \""
  const InsertHead: string := "INSERT INTO \""
  const ValuesHead: string := ") VALUES ("

  function ParseCreate(s: string): Option<CreateShape>
  {
    if !StartsWith(s, DropHead) then None
    else match ReadName(s[|DropHead|..])
      case None => None
      case Some((dropped, a)) => ParseCreateAfterDrop(dropped, a)
  }

  function ParseCreateAfterDrop(dropped: string, a: string): Option<CreateShape>
  {
    if !StartsWith(a, CreateHead) then None
    else match ReadName(a[|CreateHead|..])
      case None => None
      case Some((created, b)) => ParseCreateColumns(dropped, created, b)
  }

  function ParseCreateColumns(dropped: string, created: string, b: string): Option<CreateShape>
  {
    if !StartsWith(b, " (") then None
    else match ParseNames(b[2..])
      case None => None
      case Some((columns, c)) =>
        if c == ");" then Some(CreateShape(dropped, created, columns)) else None
  }

  function ParseInsert(s: string): Option<InsertShape>
  {
    if !StartsWith(s, InsertHead) then None
    else match ReadName(s[|InsertHead|..])
      case None => None
      case Some((table, a)) => ParseInsertColumns(table, a)
  }

  function ParseInsertColumns(table: string, a: string): Option<InsertShape>
  {
    if !StartsWith(a, " (") then None
    else match ParseNames(a[2..])
      case None => None
      case Some((columns, b)) => ParseInsertValues(table, columns, b)
  }

  function ParseInsertValues(table: string, columns: seq<string>, b: string): Option<InsertShape>
  {
    if !StartsWith(b, ValuesHead) then None
    else
      var (n, c) := ParseMarks(b[|ValuesHead|..]);
      if c == ")" then Some(InsertShape(table, columns, n)) else None
  }

  lemma {:induction false} ReadNameQuoted(name: string, rest: string)
    requires Quotable(name)
    ensures ReadName(name + "\"" + rest) == Some((name, rest))
  {
    if |name| > 0 {
      assert name[0] in name;
      assert (name + "\"" + rest)[1..] == name[1..] + "\"" + rest;
      assert forall c :: c in name[1..] ==> c in name;
      ReadNameQuoted(name[1..], rest);
      assert [name[0]] + name[1..] == name;
    } else {
      assert name + "\"" + rest == "\"" + rest;
    }
  }

  /** Reading back a quoted column list yields the names it was built from, in
      order, whenever no name contains a double quote. */
  lemma {:induction false} ColumnListRoundTrip(h: seq<string>, rest: string)
    requires forall i :: 0 <= i < |h| ==> Quotable(h[i])
    requires !StartsWith(rest, ", ")
    requires |h| == 0 ==> |rest| == 0 || rest[0] != '"'
    ensures ParseNames(ColumnList(h) + rest) == Some((h, rest))
  {
    if |h| == 0 {
      assert ColumnList(h) + rest == rest;
    } else {
      var s := ColumnList(h) + rest;
      var q := QuoteAll(h);
      if |h| == 1 {
        assert s == "\"" + (h[0] + "\"" + rest);
        ReadNameQuoted(h[0], rest);
        assert [h[0]] == h;
      } else {
        ColumnListStep(h);
        var tail := ColumnList(h[1..]) + rest;
        assert s == "\"" + (h[0] + "\"" + (", " + tail));
        ReadNameQuoted(h[0], ", " + tail);
        assert (", " + tail)[2..] == tail;
        ColumnListRoundTrip(h[1..], rest);
        assert [h[0]] + h[1..] == h;
      }
    }
  }

  /** Two or more columns: the first quoted name, a separator, then the rest. */
  lemma ColumnListStep(h: seq<string>)
    requires |h| >= 2
    ensures ColumnList(h) == "\"" + h[0] + "\"" + (", " + ColumnList(h[1..]))
  {
    assert QuoteAll(h)[1..] == QuoteAll(h[1..]);
  }

  /** Counting the placeholders back gives the column count. */
  lemma {:induction false} PlaceholdersRoundTrip(n: nat, rest: string)
    requires n == 0 ==> |rest| == 0 || rest[0] != '?'
    requires !StartsWith(rest, ", ?")
    ensures ParseMarks(Placeholders(n) + rest) == (n, rest)
  {
    if n == 1 {
      OneMarkRoundTrip(rest);
    } else if n >= 2 {
      PlaceholdersRoundTrip(n - 1, rest);
      MoreMarksRoundTrip(n, rest);
    } else {
      assert Placeholders(n) + rest == rest;
    }
  }

  lemma OneMarkRoundTrip(rest: string)
    requires !StartsWith(rest, ", ?")
    ensures ParseMarks(Placeholders(1) + rest) == (1, rest)
  {
    assert Placeholders(1) + rest == "?" + rest;
    assert ("?" + rest)[1..] == rest;
  }

  /** One more placeholder in front of a list that reads back adds one to the count. */
  lemma MoreMarksRoundTrip(n: nat, rest: string)
    requires n >= 2 && ParseMarks(Placeholders(n - 1) + rest) == (n - 1, rest)
    ensures ParseMarks(Placeholders(n) + rest) == (n, rest)
  {
    PlaceholdersStep(n);
    var tail := Placeholders(n - 1) + rest;
    assert Placeholders(n) + rest == "?" + (", " + tail);
    ParseMarksStep(tail);
  }

  /** A `?` and a separator in front of a placeholder list add one to its count. */
  lemma ParseMarksStep(tail: string)
    requires |tail| > 0 && tail[0] == '?'
    ensures ParseMarks("?" + (", " + tail)) == (ParseMarks(tail).0 + 1, ParseMarks(tail).1)
  {
    var s := "?" + (", " + tail);
    assert s[1..] == ", " + tail;
    assert StartsWith(s[1..], ", ?");
    assert s[3..] == tail;
  }

  /** The drop-and-create script names the same table twice and creates it with
      exactly the given columns, in order. */
  lemma CreateRoundTrip(table: string, header: seq<string>)
    requires Quotable(table)
    requires forall i :: 0 <= i < |header| ==> Quotable(header[i])
    ensures ParseCreate(CreateScript(table, header)) == Some(CreateShape(table, table, header))
  {
    var b := " (" + ColumnList(header) + ");";
    var a := CreateHead + table + "\"" + b;
    CreateColumnsRoundTrip(table, header);
    ParseAfterDropStep(table, table, b);
    ParseCreateStep(table, a);
    CreateScriptPieces(table, header);
  }

  lemma CreateScriptPieces(table: string, header: seq<string>)
    ensures CreateScript(table, header)
         == DropHead + (table + "\"" + (CreateHead + table + "\"" + (" (" + ColumnList(header) + ");")))
  {
    assert "\";" + "CREATE TABLE \"" == "\"" + CreateHead;
    assert "\" (" == "\"" + " (";
    RegroupCreate(DropHead, table, "\";", "CREATE TABLE \"", "\" (", ColumnList(header), ");",
                  "\"", CreateHead, " (");
  }

  /** Regrouping of the create script's concatenation, over opaque pieces. */
  lemma RegroupCreate(d: string, t: string, q: string, c: string, p: string, l: string, e: string,
                      k: string, h: string, o: string)
    requires q + c == k + h && p == k + o
    ensures d + t + q + c + t + p + l + e == d + (t + k + (h + t + k + (o + l + e)))
  {
    calc {
      d + t + q + c + t + p + l + e;
      d + t + (q + c) + t + p + l + e;
      d + t + (k + h) + t + (k + o) + l + e;
      d + (t + k + (h + t + k + (o + l + e)));
    }
  }

  lemma ParseCreateStep(dropped: string, a: string)
    requires Quotable(dropped)
    ensures ParseCreate(DropHead + (dropped + "\"" + a)) == ParseCreateAfterDrop(dropped, a)
  {
    var s := DropHead + (dropped + "\"" + a);
    assert StartsWith(s, DropHead);
    assert s[|DropHead|..] == dropped + "\"" + a;
    ReadNameQuoted(dropped, a);
  }

  lemma ParseAfterDropStep(dropped: string, created: string, b: string)
    requires Quotable(created)
    ensures ParseCreateAfterDrop(dropped, CreateHead + created + "\"" + b) == ParseCreateColumns(dropped, created, b)
  {
    var a := CreateHead + created + "\"" + b;
    assert StartsWith(a, CreateHead);
    assert a[|CreateHead|..] == created + "\"" + b;
    ReadNameQuoted(created, b);
  }

  lemma CreateColumnsRoundTrip(table: string, header: seq<string>)
    requires forall i :: 0 <= i < |header| ==> Quotable(header[i])
    ensures ParseCreateColumns(table, table, " (" + ColumnList(header) + ");") == Some(CreateShape(table, table, header))
  {
    var b := " (" + ColumnList(header) + ");";
    assert StartsWith(b, " (");
    assert b[2..] == ColumnList(header) + ");";
    NotListContinuation(");");
    ColumnListRoundTrip(header, ");");
  }

  lemma NotListContinuation(rest: string)
    requires |rest| > 0 && rest[0] == ')'
    ensures !StartsWith(rest, ", ") && !StartsWith(rest, ", ?") && rest[0] != '"' && rest[0] != '?'
  {
  }

  /** The insert names the table, lists exactly the given columns in order, and
      carries exactly one placeholder per column. */
  lemma InsertRoundTrip(table: string, header: seq<string>)
    requires Quotable(table)
    requires forall i :: 0 <= i < |header| ==> Quotable(header[i])
    ensures ParseInsert(InsertStatement(table, header)) == Some(InsertShape(table, header, |header|))
  {
    var b := ValuesHead + Placeholders(|header|) + ")";
    var a := " (" + ColumnList(header) + b;
    InsertValuesRoundTrip(table, header);
    InsertColumnsRoundTrip(table, header, b);
    ParseInsertStep(table, a);
    InsertStatementPieces(table, header);
  }

  lemma InsertStatementPieces(table: string, header: seq<string>)
    ensures InsertStatement(table, header)
         == InsertHead + (table + "\"" + (" (" + ColumnList(header) + (ValuesHead + Placeholders(|header|) + ")")))
  {
  }

  lemma ParseInsertStep(table: string, a: string)
    requires Quotable(table)
    ensures ParseInsert(InsertHead + (table + "\"" + a)) == ParseInsertColumns(table, a)
  {
    var s := InsertHead + (table + "\"" + a);
    assert StartsWith(s, InsertHead);
    assert s[|InsertHead|..] == table + "\"" + a;
    ReadNameQuoted(table, a);
  }

  lemma InsertColumnsRoundTrip(table: string, header: seq<string>, b: string)
    requires forall i :: 0 <= i < |header| ==> Quotable(header[i])
    requires |b| > 0 && b[0] == ')'
    ensures ParseInsertColumns(table, " (" + ColumnList(header) + b) == ParseInsertValues(table, header, b)
  {
    var a := " (" + ColumnList(header) + b;
    assert StartsWith(a, " (");
    assert a[2..] == ColumnList(header) + b;
    NotListContinuation(b);
    ColumnListRoundTrip(header, b);
  }

  lemma InsertValuesRoundTrip(table: string, header: seq<string>)
    ensures ParseInsertValues(table, header, ValuesHead + Placeholders(|header|) + ")")
         == Some(InsertShape(table, header, |header|))
  {
    var b := ValuesHead + Placeholders(|header|) + ")";
    assert StartsWith(b, ValuesHead);
    assert b[|ValuesHead|..] == Placeholders(|header|) + ")";
    NotListContinuation(")");
    PlaceholdersRoundTrip(|header|, ")");
  }

  /** The two statements of one import agree: both carry the cleaned header, in
      header order, and the insert has as many placeholders as the raw header
      has fields. */
  lemma ImportStatementsAgree(raw: seq<string>)
    requires forall i :: 0 <= i < |raw| ==> Quotable(raw[i])
    ensures ParseCreate(CreateScript(Table, Header(raw))).Some?
    ensures ParseInsert(InsertStatement(Table, Header(raw))).Some?
    ensures ParseCreate(CreateScript(Table, Header(raw))).value.columns
         == ParseInsert(InsertStatement(Table, Header(raw))).value.columns
         == Header(raw)
    ensures ParseInsert(InsertStatement(Table, Header(raw))).value.markers == |raw|
  {
    var h := Header(raw);
    forall i | 0 <= i < |h| ensures Quotable(h[i]) {
      assert '"' != '_';
    }
    assert Quotable(Table);
    CreateRoundTrip(Table, h);
    InsertRoundTrip(Table, h);
  }

  /** Whatever the header fields hold, the insert ends with a value list of
      exactly one `?` per raw field. */
  lemma OneMarkerPerField(raw: seq<string>)
    ensures var s := InsertStatement(Table, Header(raw));
            var p := Placeholders(|raw|);
            |p| + 1 <= |s| && s[|s| - |p| - 1..] == p + ")" && Count(p, '?') == |raw|
  {
    var h := Header(raw);
    InsertStatementPieces(Table, h);
    SuffixAfter(InsertHead, Table + "\"", " (" + ColumnList(h), ValuesHead, Placeholders(|h|), ")");
    PlaceholderCount(|raw|);
  }

  /** The last two pieces of a right-nested concatenation are its suffix. */
  lemma SuffixAfter(a: string, b: string, c: string, v: string, p: string, k: string)
    ensures var s := a + (b + (c + (v + p + k)));
            |p| + |k| <= |s| && s[|s| - |p| - |k|..] == p + k
  {
    assert a + (b + (c + (v + p + k))) == (a + b + c + v) + (p + k);
  }

  /** Without escaping, a `"` inside a header name ends the identifier early:
      the column list then reads back as a different first name. */
  lemma UnescapedQuoteSplitsName(a: string, b: string, rest: string)
    requires Quotable(a)
    requires b == [] || b[0] != ','
    ensures ParseNames(ColumnList([a + "\"" + b]) + rest).Some?
    ensures ParseNames(ColumnList([a + "\"" + b]) + rest).value.0[0] == a
    ensures a != a + "\"" + b
  {
    var name := a + "\"" + b;
    var s := ColumnList([name]) + rest;
    assert s == "\"" + (a + "\"" + (b + "\"" + rest));
    ReadNameQuoted(a, b + "\"" + rest);
    assert (b + "\"" + rest)[0] != ',';
    assert |a + "\"" + b| > |a|;
  }
}

=== FILE: strings.dfy ===
/**
 The handful of Python `str` operations that main.py relies on, written over
 `string` (a sequence of Unicode scalar values): `strip`/`lstrip` with no
 argument, single-character `replace`, `join`, and ASCII case mapping.
 */
module Strings {

  /** Python's `str.isspace()` for one character: exactly the code points that
      `str.strip()` removes when it is called without an argument. */
  predicate IsSpace(c: char)
  {
    var n := c as int;
    || 0x09 <= n <= 0x0D
    || 0x1C <= n <= 0x20
    || n == 0x85
    || n == 0xA0
    || n == 0x1680
    || 0x2000 <= n <= 0x200A
    || n == 0x2028
    || n == 0x2029
    || n == 0x202F
    || n == 0x205F
    || n == 0x3000
  }

  predicate AllSpace(s: string)
  {
    forall i :: 0 <= i < |s| ==> IsSpace(s[i])
  }

  /** No whitespace at either end: what `strip()` leaves behind. */
  predicate Trimmed(s: string)
  {
    s == [] || (!IsSpace(s[0]) && !IsSpace(s[|s| - 1]))
  }

  /** The length of the longest all-whitespace prefix of `s`. */
  function LeadingSpace(s: string): (k: nat)
    ensures k <= |s|
    ensures forall i :: 0 <= i < k ==> IsSpace(s[i])
    ensures k < |s| ==> !IsSpace(s[k])
  {
    if |s| > 0 && IsSpace(s[0]) then
      var k := 1 + LeadingSpace(s[1..]);
      assert forall i :: 1 <= i < k ==> s[i] == s[1..][i - 1];
      k
    else 0
  }

  /** `s.lstrip()`: drops the longest all-whitespace prefix. */
  function LStrip(s: string): (r: string)
    ensures |r| <= |s| && r == s[|s| - |r|..]
    ensures AllSpace(s[..|s| - |r|])
    ensures r == [] || !IsSpace(r[0])
  {
    var k := LeadingSpace(s);
    assert forall i :: 0 <= i < k ==> s[..k][i] == s[i];
    s[k..]
  }

  /** A whitespace character followed by whitespace is whitespace. */
  lemma SpaceThenSpaces(s: string, k: nat)
    requires 0 < k <= |s| && IsSpace(s[0]) && AllSpace(s[1..][..k - 1])
    ensures AllSpace(s[..k])
  {
    forall i | 0 <= i < k ensures IsSpace(s[..k][i]) {
      if i > 0 { assert s[..k][i] == s[1..][..k - 1][i - 1]; }
    }
  }

  /** The length of `s` without its longest all-whitespace suffix. */
  function TrailingSpace(s: string): (k: nat)
    ensures k <= |s|
    ensures forall i :: k <= i < |s| ==> IsSpace(s[i])
    ensures k > 0 ==> !IsSpace(s[k - 1])
  {
    if |s| > 0 && IsSpace(s[|s| - 1]) then
      var k := TrailingSpace(s[..|s| - 1]);
      assert forall i :: k <= i < |s| - 1 ==> s[i] == s[..|s| - 1][i];
      k
    else |s|
  }

  /** `s.rstrip()`: drops the longest all-whitespace suffix. */
  function RStrip(s: string): (r: string)
    ensures |r| <= |s| && r == s[..|r|]
    ensures AllSpace(s[|r|..])
    ensures r == [] || !IsSpace(r[|r| - 1])
  {
    var k := TrailingSpace(s);
    assert forall i :: 0 <= i < |s| - k ==> s[k..][i] == s[k + i];
    s[..k]
  }

  /** `s.strip()`: drops leading whitespace, then trailing whitespace. */
  function Strip(s: string): (r: string)
    ensures Trimmed(r)
  {
    if |s| > 0 && IsSpace(s[0]) then Strip(s[1..]) else RStrip(s)
  }

  /** Stripping is `rstrip` after `lstrip`. */
  lemma {:induction false} StripIsRStripOfLStrip(s: string)
    ensures Strip(s) == RStrip(LStrip(s))
  {
    if |s| > 0 && IsSpace(s[0]) {
      StripIsRStripOfLStrip(s[1..]);
      assert s[1 + LeadingSpace(s[1..])..] == s[1..][LeadingSpace(s[1..])..];
    }
  }

  /** `strip()` keeps the middle of `s` between a whitespace prefix and a
      whitespace suffix; `i` is where the middle starts. */
  lemma {:induction false} StripMiddle(s: string) returns (i: nat)
    ensures i + |Strip(s)| <= |s| && Strip(s) == s[i..i + |Strip(s)|]
    ensures AllSpace(s[..i]) && AllSpace(s[i + |Strip(s)|..])
  {
    var r := Strip(s);
    if |s| > 0 && IsSpace(s[0]) {
      var j := StripMiddle(s[1..]);
      i := j + 1;
      ShiftedSlices(s, j, |r|);
    } else {
      i := 0;
      assert s[..0] == [];
    }
  }

  /** Slices of `s[1..]` seen as slices of `s`, for a first character that is
      whitespace. */
  lemma ShiftedSlices(s: string, j: nat, n: nat)
    requires |s| > 0 && IsSpace(s[0]) && j + n < |s|
    requires AllSpace(s[1..][..j]) && AllSpace(s[1..][j + n..])
    ensures s[1..][j..j + n] == s[j + 1..j + 1 + n]
    ensures AllSpace(s[..j + 1]) && AllSpace(s[j + 1 + n..])
  {
    assert s[1..][j + n..] == s[j + 1 + n..];
    SpaceThenSpaces(s, j + 1);
  }

  /** The prefix removed by `lstrip` is uniquely determined: any split of `s` into
      whitespace followed by a part that does not start with whitespace is the
      one `lstrip` finds. */
  lemma {:induction false} LStripUnique(w: string, t: string)
    requires AllSpace(w)
    requires t == [] || !IsSpace(t[0])
    ensures LStrip(w + t) == t
  {
    LeadingSpaceUnique(w, t);
    assert (w + t)[|w|..] == t;
  }

  lemma {:induction false} LeadingSpaceUnique(w: string, t: string)
    requires AllSpace(w)
    requires t == [] || !IsSpace(t[0])
    ensures LeadingSpace(w + t) == |w|
    decreases |w|
  {
    if |w| > 0 {
      assert (w + t)[0] == w[0];
      assert (w + t)[1..] == w[1..] + t;
      LeadingSpaceUnique(w[1..], t);
    } else {
      assert w + t == t;
    }
  }

  /** The suffix removed by `rstrip` is uniquely determined. */
  lemma {:induction false} RStripUnique(t: string, w: string)
    requires AllSpace(w)
    requires t == [] || !IsSpace(t[|t| - 1])
    ensures RStrip(t + w) == t
  {
    TrailingSpaceUnique(t, w);
    assert (t + w)[..|t|] == t;
  }

  lemma {:induction false} TrailingSpaceUnique(t: string, w: string)
    requires AllSpace(w)
    requires t == [] || !IsSpace(t[|t| - 1])
    ensures TrailingSpace(t + w) == |t|
    decreases |w|
  {
    if |w| > 0 {
      assert (t + w)[|t + w| - 1] == w[|w| - 1];
      assert (t + w)[..|t + w| - 1] == t + w[..|w| - 1];
      TrailingSpaceUnique(t, w[..|w| - 1]);
    } else {
      assert t + w == t;
    }
  }

  /** `strip()` leaves a string with no surrounding whitespace unchanged, and so
      stripping twice is the same as stripping once. */
  lemma StripTrimmed(s: string)
    requires Trimmed(s)
    ensures Strip(s) == s
  {
    LStripUnique([], s);
    assert [] + s == s;
    RStripUnique(s, []);
    assert s + [] == s;
  }

  lemma StripIdempotent(s: string)
    ensures Strip(Strip(s)) == Strip(s)
  {
    StripTrimmed(Strip(s));
  }

  /** `s.replace(a, b)` for single characters `a` and `b`. */
  function ReplaceChar(s: string, a: char, b: char): (r: string)
    ensures |r| == |s|
    ensures forall i :: 0 <= i < |s| ==> r[i] == (if s[i] == a then b else s[i])
  {
    if |s| == 0 then [] else [if s[0] == a then b else s[0]] + ReplaceChar(s[1..], a, b)
  }

  /** Number of occurrences of `c` in `s`. */
  function Count(s: string, c: char): (n: nat)
    ensures n <= |s|
    ensures n == 0 <==> c !in s
  {
    if |s| == 0 then 0 else (if s[0] == c then 1 else 0) + Count(s[1..], c)
  }

  lemma {:induction false} CountConcat(a: string, b: string, c: char)
    ensures Count(a + b, c) == Count(a, c) + Count(b, c)
  {
    if |a| > 0 {
      assert (a + b)[1..] == a[1..] + b;
      CountConcat(a[1..], b, c);
    } else {
      assert a + b == b;
    }
  }

  /** Counting in a prefix of `s` is counting the first character and then the
      rest of the prefix. */
  lemma CountPrefixStep(s: string, i: nat, c: char)
    requires 1 <= i <= |s|
    ensures Count(s[..i], c) == (if s[0] == c then 1 else 0) + Count(s[1..][..i - 1], c)
  {
    assert s[..i][1..] == s[1..][..i - 1];
  }

  /** `s.replace(c, "")`: deletes every occurrence of `c` and keeps every other
      character, in order: the character at position `i` moves left by the
      number of `c`s before it. */
  function DeleteChar(s: string, c: char): (r: string)
    ensures c !in r
    ensures |r| == |s| - Count(s, c)
    ensures forall x :: x != c && x in s ==> x in r
    ensures forall x :: x in r ==> x in s
    ensures KeepsOrder(s, c, r)
  {
    if |s| == 0 then []
    else
      var rest := DeleteChar(s[1..], c);
      KeepsOrderStep(s, c, rest);
      if s[0] == c then rest else [s[0]] + rest
  }

  /** Every character other than `c` sits in `r` at its index in `s` less the
      number of `c`s before it. */
  ghost predicate KeepsOrder(s: string, c: char, r: string)
  {
    forall i :: 0 <= i < |s| && s[i] != c ==>
      Count(s[..i], c) <= i && i - Count(s[..i], c) < |r| && r[i - Count(s[..i], c)] == s[i]
  }

  /** Deleting from `s[1..]` in order and then keeping or dropping `s[0]`
      deletes from `s` in order. */
  lemma KeepsOrderStep(s: string, c: char, rest: string)
    requires |s| > 0 && KeepsOrder(s[1..], c, rest)
    ensures KeepsOrder(s, c, if s[0] == c then rest else [s[0]] + rest)
  {
    var r := if s[0] == c then rest else [s[0]] + rest;
    forall i | 0 <= i < |s| && s[i] != c
      ensures Count(s[..i], c) <= i && i - Count(s[..i], c) < |r| && r[i - Count(s[..i], c)] == s[i]
    {
      if i > 0 {
        CountPrefixStep(s, i, c);
        assert s[i] == s[1..][i - 1];
      } else {
        assert Count(s[..0], c) == 0;
      }
    }
  }

  /** Replacing one character by another does not change how often a third occurs. */
  lemma {:induction false} CountAfterReplace(s: string, a: char, b: char, c: char)
    requires c != a && c != b
    ensures Count(ReplaceChar(s, a, b), c) == Count(s, c)
  {
    if |s| > 0 {
      var r := ReplaceChar(s, a, b);
      assert r[1..] == ReplaceChar(s[1..], a, b);
      CountAfterReplace(s[1..], a, b, c);
    }
  }

  /** `sep.join(xs)`. */
  function Join(sep: string, xs: seq<string>): string
  {
    if |xs| == 0 then ""
    else if |xs| == 1 then xs[0]
    else xs[0] + sep + Join(sep, xs[1..])
  }

  /** A join is empty exactly when there is nothing to separate and no content:
      at most one part, and that part empty. */
  lemma {:induction false} JoinEmpty(sep: string, xs: seq<string>)
    requires sep != ""
    ensures Join(sep, xs) == "" <==> |xs| == 0 || (|xs| == 1 && xs[0] == "")
  {
    if |xs| >= 2 {
      assert |Join(sep, xs)| >= |sep|;
    }
  }

  /** A join opens with its first part and closes with its last. */
  lemma {:induction false} JoinEnds(sep: string, xs: seq<string>)
    requires |xs| > 0
    ensures |xs[0]| <= |Join(sep, xs)| && Join(sep, xs)[..|xs[0]|] == xs[0]
    ensures |xs[|xs| - 1]| <= |Join(sep, xs)| && Join(sep, xs)[|Join(sep, xs)| - |xs[|xs| - 1]|..] == xs[|xs| - 1]
  {
    if |xs| > 1 {
      JoinEnds(sep, xs[1..]);
      var rest := Join(sep, xs[1..]);
      assert Join(sep, xs) == xs[0] + (sep + rest);
      assert xs[1..][|xs[1..]| - 1] == xs[|xs| - 1];
    }
  }

  predicate IsAsciiLower(c: char) { 'a' <= c <= 'z' }
  predicate IsAsciiUpper(c: char) { 'A' <= c <= 'Z' }

  function UpperChar(c: char): (u: char)
    ensures !IsAsciiLower(u)
    ensures IsAsciiLower(c) ==> u as int == c as int - 32
    ensures !IsAsciiLower(c) ==> u == c
  {
    if IsAsciiLower(c) then (c as int - 32) as char else c
  }

  function LowerChar(c: char): (l: char)
    ensures !IsAsciiUpper(l)
    ensures IsAsciiUpper(c) ==> l as int == c as int + 32
    ensures !IsAsciiUpper(c) ==> l == c
  {
    if IsAsciiUpper(c) then (c as int + 32) as char else c
  }

  /** `s.upper()`, restricted to the ASCII letters. */
  function Upper(s: string): (r: string)
    ensures |r| == |s|
    ensures forall i :: 0 <= i < |s| ==> r[i] == UpperChar(s[i])
  {
    seq(|s|, i requires 0 <= i < |s| => UpperChar(s[i]))
  }

  /** `s.lower()`, restricted to the ASCII letters. */
  function Lower(s: string): (r: string)
    ensures |r| == |s|
    ensures forall i :: 0 <= i < |s| ==> r[i] == LowerChar(s[i])
  {
    seq(|s|, i requires 0 <= i < |s| => LowerChar(s[i]))
  }

  predicate StartsWith(s: string, prefix: string)
  {
    |prefix| <= |s| && s[..|prefix|] == prefix
  }
}
